=== FILE: README.md ===
# Twilio dialer front-end: a Dafny model

This project models the client-side logic of a small Twilio dialer written in
TypeScript and React. The dialer places outbound calls in two ways:

- **Server-placed calls.** The page asks a backend to dial. It then polls the
  call's status every two seconds until a terminal status arrives.
- **Browser calls.** A voice device is registered in the browser with a token
  from the backend, and the call is connected from there.

Every call is logged in a local history ledger. The ledger holds at most 500
entries, newest first, and can be exported as CSV.

The model is a set of pure functions over immutable datatypes:

| file | module | models |
|---|---|---|
| `wrappers.dfy` | `Wrappers` | `Option` and `Result` |
| `strings.dfy` | `Strings` | the JavaScript string behaviour the dialer relies on: `\|\|` on strings, `trim`, `split`/`join` on one character, decimal rendering of numbers |
| `calls.dfy` | `Calls` | the history entry, the terminal statuses, the E.164 test, `{...entry, ...patch}`, the duration rule, the two error-message conventions, the backend requests |
| `ledger.dfy` | `Ledger` | `addHistory`, `updateHistory` and `clearHistory` of the shared dialer state |
| `csv.dfy` | `Csv` | the CSV export of the history table, plus an RFC 4180 reader that serves as its inverse |
| `settings.dfy` | `Settings` | the caller-ID pool, the API base, the default caller ID |
| `server_call.dfy` | `ServerCall` | the server-placed call page: place, poll tick, hang up, reset |
| `dialer.dfy` | `Dialer` | the browser-call state of the dialer context: register, start, hang up, mute |
| `web_call.dfy` | `WebCall` | the browser-call page on top of that state, with its query-string auto-call |
| `browser_panel.dfy` | `BrowserPanel` | the self-contained browser-call panel of the test page and of the legacy app |
| `legacy_app.dfy` | `LegacyApp` | the legacy single-page app: both halves sharing one error slot |
| `require_auth.dfy` | `RequireAuth` | the route guard's decision |

The model's inputs stand in for the outside world:

- An HTTP exchange is an input: the backend's reply (`CallReply`,
  `StatusReply`, `HangupReply`, `TokenReply`).
- An awaited Twilio SDK call is an input `Outcome`: it resolves, or it throws a
  message.
- The clock is an input `Instant`. It carries the epoch milliseconds and the
  ISO text that `toISOString` would produce.
- A transition returns the request it sent, or `None` when it sent none. This
  makes "nothing is sent when validation fails" a statement about the result.
- A timer tick and an SDK event (`registered`, `disconnect`, `mute`, `error`)
  are separate functions. They can be applied in any order.

The legacy app and the pages differ in several places: messages, the caller-ID
fallback, and whether browser calls are logged. Members that serve both take a
`Variant` (`Pages` or `Legacy`).

Notes on the code:

- The ledger enforces neither unique sids nor immutability after a terminal
  status. `updateHistory` patches every entry with the sid, whatever its status.
- Hang-up checks only that a sid exists (src/pages/ServerCallPage.tsx:130). It
  does not check that the call is still live; only the disabled button
  (src/pages/ServerCallPage.tsx:234) prevents it.
- `startCall` of the dialer context does not check E.164. The pages check it:
  the web-call page before calling, and the test page only after the
  device-ready check.
- The server call validates the API base first, then the number, then the
  caller ID.
- A browser call's `disconnect` does not patch its ledger entry. The page shows
  `completed`, but the logged entry stays `in-progress`.
- The duration is absent both when there is no start time and when the start
  time is 0, because the code tests the start time for truthiness.
- A polling timer keeps the API base it was armed with. In the legacy app the
  base is editable, and a tick after an edit still asks the old base.
- The web-call page's auto-call effect re-runs whenever the active call goes
  back to none. The query string has not changed, so every `disconnect` is
  followed by the same call again (`WebCall.AutocallRepeatsAfterDisconnect`).
- Query values are form-decoded, so a `+` written into the query string
  arrives as a space. The page's own example, `?autocall=1&to=+44...`, therefore
  reaches `handleCall` with a leading space and is refused as invalid
  (`WebCall.RawPlusNumberIsRefused`).

## Model

| member | source | states |
|---|---|---|
| Calls.TerminalStatusIff | src/context/DialerContext.tsx:38-44 | a status is terminal exactly when it is one of completed, failed, canceled, busy, no-answer; queued, ringing and in-progress are not |
| Calls.MatchE164 | src/context/DialerContext.tsx:46 | the scan accepts a string exactly when it is `+`, a non-zero digit and 7 to 14 more digits |
| Calls.Merge | src/context/DialerContext.tsx:135-136 | a patch key that is present replaces that field; every absent key and every identity field is kept |
| Calls.Duration | src/pages/ServerCallPage.tsx:60-65 | a duration exists exactly when a non-zero start time exists; it is the elapsed time rounded to the nearest whole second, and 0 when the end is not after the start |
| Calls.ClientSidInjective | src/pages/WebCallPage.tsx:54-56 | browser calls started at different milliseconds get different `client-<ms>` identifiers |
| Calls.CallErrorText | src/pages/ServerCallPage.tsx:101-107 | a string `detail` wins, even an empty one; otherwise a truthy `message`; otherwise the JSON text of the body |
| Calls.TokenErrorText | src/context/DialerContext.tsx:177-179 | a truthy `detail` wins; otherwise a truthy `message`; otherwise `Token error` |
| Calls.ErrorConventionsDiffer | src/context/DialerContext.tsx:178 | the token and call conventions give different texts for an empty-string `detail` and for a non-string `detail` |
| Calls.ErrorConventionsAgree | src/pages/ServerCallPage.tsx:101-107 | for every body, both conventions give the `detail` when it is a non-empty string, and the `message` when there is no usable `detail` and the message is truthy; they can differ only for an empty-string `detail`, a truthy non-string `detail`, or a body with neither; with string or absent fields the token text is never empty |
| Calls.Shown | src/pages/ServerCallPage.tsx:124-126 | a caught error shows its message, and exactly `Error` when the message is empty |
| Ledger.Add | src/context/DialerContext.tsx:133-134 | the new entry comes first, followed by the previous entries in order, truncated to 500 |
| Ledger.Update | src/context/DialerContext.tsx:135-136 | same length; an entry with the sid becomes its merge with the patch; every other entry is unchanged |
| Ledger.Clear | src/context/DialerContext.tsx:137 | the cleared ledger is empty |
| Ledger.UpdateMissing | src/context/DialerContext.tsx:135-136 | patching a sid that is not in the ledger changes nothing |
| Ledger.UpdateIdempotent | src/context/DialerContext.tsx:135-136 | applying the same patch twice equals applying it once |
| Ledger.UpdateAfterAdd | src/context/DialerContext.tsx:133-136 | patching another sid commutes with adding an entry |
| Ledger.AddAllKeepsNewest | src/context/DialerContext.tsx:133-134 | after any sequence of additions to a ledger within the cap, the ledger is the most recent 500 entries, newest first |
| Ledger.AddAllFull | src/context/DialerContext.tsx:133-134 | after 500 or more additions only the 500 newest entries remain |
| Csv.NewlinesToSpaces | src/components/HistoryTable.tsx:12 | every line feed of the message becomes a space and nothing else changes |
| Csv.RowFields | src/components/HistoryTable.tsx:10-13 | a row has one field per header column |
| Csv.Esc | src/components/HistoryTable.tsx:14 | an escaped field is enclosed in double quotes |
| Csv.EscRoundTrip | src/components/HistoryTable.tsx:14 | un-escaping an escaped field gives back the field |
| Csv.ReadCsvOf | src/components/HistoryTable.tsx:14-15 | any table of non-empty records, each field quoted and the records joined as the export joins them, reads back as the same table |
| Csv.ExportRoundTrip | src/components/HistoryTable.tsx:6-15 | reading the exported text back as RFC 4180 CSV gives the header followed by one row per entry, in ledger order |
| Csv.ExportEmpty | src/components/HistoryTable.tsx:15 | an empty ledger exports the header record alone |
| Csv.RowFieldsRecoverable | src/components/HistoryTable.tsx:10-13 | sid, agent, to, from, status and startedAt appear verbatim in header order; a missing end time or duration is an empty field, a present one its text; the duration field reads back as the stored number; the message keeps every character except line feeds, which become spaces |
| Strings.SplitJoin | src/context/DialerContext.tsx:111 | splitting at a character undoes joining with it, when no piece holds that character |
| Strings.Trim | src/context/DialerContext.tsx:112 | `trim` cuts a prefix and a suffix of white space and leaves a result that neither starts nor ends with white space |
| Strings.TrimmedCutUnique | src/context/DialerContext.tsx:112 | only one cut of a string is trimmed, so the trim contract fixes the result |
| Settings.ParsePool | src/context/DialerContext.tsx:109-116 | every pool number is non-empty, trimmed and comma-free; a text without a comma gives its trimmed self, or nothing when that is empty |
| Settings.ParsePoolConcat | src/context/DialerContext.tsx:109-116 | the pool of two comma-joined texts is the concatenation of their pools |
| Settings.ParsePoolJoin | src/context/DialerContext.tsx:109-116 | joining trimmed, non-empty, comma-free numbers with commas and parsing gives them back |
| Settings.ApiBase | src/context/DialerContext.tsx:162-163 | the API base is the configured text with its trailing slashes removed; no slash remains at its end |
| Settings.ApiBaseIdempotent | src/context/DialerContext.tsx:163 | stripping trailing slashes twice equals stripping once |
| Settings.Hydrate | src/App.tsx:53-55 | a non-empty stored API base wins over the configured one |
| Settings.PersistApiBase | src/App.tsx:56-58 | only a non-empty API base is stored |
| Settings.ApiBaseSurvivesReload | src/App.tsx:53-58 | a non-empty API base that was stored is the one restored |
| Settings.DefaultFrom | src/pages/ServerCallPage.tsx:36-38 | an empty caller ID takes the first pool number; a chosen one is kept |
| Settings.DefaultFromSettles | src/pages/ServerCallPage.tsx:36-38 | the caller-ID effect reaches a fixed point after one run; the caller ID is non-empty when the pool is |
| ServerCall.PlaceCall | src/pages/ServerCallPage.tsx:88-127 | the API base, number and caller-ID checks run in order, and the first failure sends nothing and changes only the error; a created call logs one entry and arms polling for its sid; a refused or failed call only records the error |
| ServerCall.PollTick | src/pages/ServerCallPage.tsx:47-78 | without a timer nothing happens; a tick asks the base and sid the timer was armed with; a terminal status ends the call's entry and stops polling; another status only updates the page; a non-2xx reply shows `Status error: <code> <statusText>`, a thrown poll `Status error: <message>`, and either stops polling |
| ServerCall.Hangup | src/pages/ServerCallPage.tsx:129-163 | without a sid nothing is sent; a successful hang-up marks the call completed, ends its entry and stops polling; a failure changes only the error, which is the refusal text of the body or the thrown message |
| ServerCall.Reset | src/pages/ServerCallPage.tsx:80-86 | reset clears the sid, status, start time, timer and error |
| ServerCall.ResetIdempotent | src/pages/ServerCallPage.tsx:80-86 | resetting twice equals resetting once |
| ServerCall.TransitionsKeepConsistent | src/pages/ServerCallPage.tsx:40-48 | a live timer always polls the current call, whose start time is known |
| ServerCall.RejectedPlaceCallIgnoresBackend | src/pages/ServerCallPage.tsx:88-92 | a call rejected by validation does not depend on any backend reply or time |
| ServerCall.TerminalTickIsLast | src/pages/ServerCallPage.tsx:58-71 | after a terminal tick every later tick changes nothing, so the entry is ended once |
| ServerCall.PollTickTouchesOnlyItsCall | src/pages/ServerCallPage.tsx:66-70 | a tick keeps the ledger's length and every entry of another call |
| ServerCall.QueuedThenCompleted | src/pages/ServerCallPage.tsx:108-123 | a call created as queued is logged without an end; the next tick asks the base the call was placed through, and a completed reply ends the entry with its duration and stops polling |
| ServerCall.MissingPlusRejected | src/pages/ServerCallPage.tsx:91 | a number without its `+` is rejected with the page's message, and nothing is sent or logged |
| Dialer.RegisterIfNeeded | src/context/DialerContext.tsx:184-215 | nothing is done with a device or without an agent; otherwise an insecure origin is refused, then a missing API base; the token is requested for the agent; the device is stored exactly when token and registration both succeed; a refused token rejects with the token error text, a thrown error with its message |
| Dialer.OnRegistered | src/context/DialerContext.tsx:196 | the registered event makes the device ready and changes nothing else |
| Dialer.StartCall | src/context/DialerContext.tsx:235-252 | a call starts exactly when a ready device connects; the call becomes active and un-muted; otherwise the state is unchanged with `Mic/Device not ready yet.` or the SDK's error |
| Dialer.OnDisconnect | src/context/DialerContext.tsx:198-201 | a disconnect leaves no active call and clears mute; the device stays |
| Dialer.OnMute | src/context/DialerContext.tsx:249 | the muted flag follows the SDK's event |
| Dialer.ToggleMute | src/context/DialerContext.tsx:258-263 | without a call nothing happens; otherwise the flag flips and the new value is sent to the call |
| Dialer.ToggleMuteInvolution | src/context/DialerContext.tsx:258-263 | toggling twice restores the state; the mute event echoing a toggle changes nothing |
| Dialer.HangupThenDisconnect | src/context/DialerContext.tsx:245-256 | hang-up asks the active call to disconnect; after its disconnect event nothing is left to hang up or mute, and the device stays registered and ready |
| Dialer.TransitionsKeepWellformed | src/context/DialerContext.tsx:235-263 | every transition keeps the rule that only a ready, registered device holds a call |
| Dialer.UnregisteredCallFails | src/context/DialerContext.tsx:236-238 | before registration a call fails as not ready and changes nothing |
| WebCall.HandleCall | src/pages/WebCallPage.tsx:48-70 | an invalid number is refused before the dialer is asked; a failed start changes only the error; only a started call changes the ledger, logging one in-progress `client-<ms>` entry whose sid the page shows |
| WebCall.OnDisconnect | src/pages/WebCallPage.tsx:66 | the page shows completed; the dialer has no active call and is not muted, and keeps its device and ready flag |
| WebCall.CallFrom | src/pages/WebCallPage.tsx:133 | the call button uses the chosen caller ID, else the first pool number |
| WebCall.Autocall | src/pages/WebCallPage.tsx:35-46 | the auto-call runs exactly when `autocall=1`, the device is ready with no call, and both the `to` number and a caller ID are non-empty; it calls the `to` parameter from the `from` parameter when that is non-empty, else from the first pool number |
| WebCall.RunAutocall | src/pages/WebCallPage.tsx:35-46 | an auto-call writes its `to` and caller ID into the call form and otherwise has exactly the effect of `handleCall` with them; without an auto-call nothing changes |
| WebCall.AutocallFillsTheForm | src/pages/WebCallPage.tsx:41-42 | after an auto-call, the form and the Call button's caller ID are the numbers the auto-call used |
| WebCall.Param | src/pages/WebCallPage.tsx:36-39 | a query parameter is the form-decoded value of the first pair with that key, and absent when no pair has it |
| WebCall.RawPlusNumberIsRefused | src/pages/WebCallPage.tsx:34-51 | a `to` number written with its `+` into the query string reaches the call with a leading space and is refused as invalid |
| WebCall.AutocallRepeatsAfterDisconnect | src/pages/WebCallPage.tsx:35-46 | after an auto-call, the form holds its numbers, and after the call's disconnect the effect picks the same call again |
| WebCall.Mount | src/pages/WebCallPage.tsx:30-32 | mounting registers the device, and a rejection shows its message |
| WebCall.EnabledCallIsLogged | src/pages/WebCallPage.tsx:131-134 | a call the enabled button makes to a valid number is logged with the button's caller ID and disables the button |
| BrowserPanel.Identity | src/pages/TestPage.tsx:46 | the token identity is the agent, or `agent` when none is set; never empty |
| BrowserPanel.RegisterClient | src/pages/TestPage.tsx:38-56 | an insecure origin is refused, then a missing API base, and neither sends anything; otherwise the device is kept only when token and registration both succeed; a refused token shows the token error text, a thrown fetch or `register()` its message, and nothing else changes |
| BrowserPanel.OnRegistered | src/pages/TestPage.tsx:49 | the registered event makes the panel ready and changes nothing else |
| BrowserPanel.OnDeviceError | src/pages/TestPage.tsx:50 | a device error is shown with the `Device error: ` prefix, and nothing else changes |
| BrowserPanel.BrowserFromParam | src/pages/TestPage.tsx:63-66 | `From` is the chosen caller ID; otherwise the first pool number on the test page, or the server form's caller ID in the legacy app |
| BrowserPanel.CallFromBrowser | src/pages/TestPage.tsx:58-94 | the device-ready check comes before the number check; a call is placed exactly when both pass and connect resolves; a failed connect sets only the error; a placed call becomes active (the test page also shows it in progress under a `client-<ms>` sid) and nothing else changes; only the test page logs it |
| BrowserPanel.OnCallDisconnect | src/pages/TestPage.tsx:87-90 | a disconnect clears the active call; the test page shows completed |
| BrowserPanel.HangupBrowser | src/pages/TestPage.tsx:96-102 | without a call nothing happens; otherwise the call is disconnected and cleared at once |
| BrowserPanel.HangupThenDisconnect | src/pages/TestPage.tsx:96-102 | the disconnect event after a hang-up changes nothing more |
| BrowserPanel.TransitionsKeepWellformed | src/pages/TestPage.tsx:38-102 | every panel transition and event keeps the rule that only a ready, registered device holds a call |
| BrowserPanel.CallNeedsRegistration | src/pages/TestPage.tsx:61 | without a device no call is placed or logged, and the panel asks for registration |
| LegacyApp.PlaceCall | src/App.tsx:198-237 | the app's place-call leaves the browser panel alone except for the shared error; with an invalid number it sends nothing and shows the app's own message |
| LegacyApp.PollTick | src/App.tsx:117-146 | a tick asks the base and sid the timer was armed with, whatever the base is now; it keeps the ledger's length, and leaves the ledger untouched while polling continues |
| LegacyApp.Hangup | src/App.tsx:239-270 | without a sid nothing happens; a successful hang-up shows completed; a failure leaves the ledger, and a refusal shows its refusal text |
| LegacyApp.Reset | src/App.tsx:153-159 | reset returns the server call to idle (no sid, status, start time, timer or error), clears the shared error, and leaves the rest of the browser panel |
| LegacyApp.RegisterClient | src/App.tsx:292-314 | registration touches the server-call half only through the shared error |
| LegacyApp.CallFromBrowser | src/App.tsx:316-333 | a browser call in the app never writes the ledger, and falls back to the server form's caller ID |
| LegacyApp.HangupBrowser | src/App.tsx:335-340 | hang-up clears only the active browser call |
| LegacyApp.OnCallDisconnect | src/App.tsx:329 | a disconnect clears only the active browser call |
| LegacyApp.ClearHistory | src/App.tsx:545 | the Clear button empties the ledger |
| LegacyApp.OnRegistered | src/App.tsx:307 | the device's `registered` event makes the panel ready and changes nothing else |
| LegacyApp.OnDeviceError | src/App.tsx:308 | the device's `error` event shows `Device error: <message>` in the shared slot and changes nothing else |
| LegacyApp.TransitionsShareError | src/App.tsx:84 | both halves of the app show the same single error after every transition and every device or call event |
| LegacyApp.BrowserErrorReplacesCallError | src/App.tsx:316-320 | a failed browser call overwrites the error the server call was showing |
| RequireAuth.FromPath | src/components/RequireAuth.tsx:13-16 | the return path is the carried `from` path; otherwise the current path, with the verification page and an empty path both mapped to `/make-call`; it is never empty |
| RequireAuth.Decide | src/components/RequireAuth.tsx:18-45 | render nothing while loading; with no user, go to `/login` carrying the current path; an unverified user on a protected route goes to verification; a verified user on verification goes back; otherwise render the outlet, in exactly the remaining cases |
| RequireAuth.NoSelfRedirect | src/components/RequireAuth.tsx:13-43 | without a carried path a signed-in user is never redirected to the page they are on |
| RequireAuth.VerificationDetourReturns | src/components/RequireAuth.tsx:26-43 | an unverified user sent to verification is sent back to the original page once verified |

## Left out

- Persistence is left out: the `localStorage` reads and writes of the history,
  agent and pool, and the JSON parsing of the stored history. `Settings.Hydrate`
  and `Settings.PersistApiBase` model only the precedence between stored and
  configured values.
- A stored history entry whose fields are not strings, or whose duration is not
  a natural number, cannot be represented. `durationSec` is a `nat`.
- `fetch`, response bodies and their JSON are not modelled. Each exchange is a
  reply datatype, and the sid in the status URL is not percent-encoded
  (`encodeURIComponent` is left out).
- `setInterval` timing is left out. A tick is an event, and interleavings of a
  tick that is in flight while the page is reset or hung up are not modelled.
- The Twilio SDK's internals are left out. Its events are separate functions.
- The `tokenWillExpire` refresh (src/context/DialerContext.tsx:204-211) is left
  out. It requests a fresh token for the agent and hands it to the device, and
  logs to the console only when that fails. The model keeps no token, so a
  refresh has no state to change.
- The device's `error` event in the dialer context
  (src/context/DialerContext.tsx:197) only logs to the console and is left out.
- Cleaning up the device on unmount (src/context/DialerContext.tsx:224-232) is
  left out.
- The `M` mute shortcut, the `beforeunload` guard, the CSV `Blob` download and
  all presentation components are left out. So are the Firebase sign-in pages,
  the auth context and the route table. They hold no state the core depends on.
- Calls.Duration: it uses exact integer arithmetic for
  `Math.round(ms / 1000)`. Floating-point rounding of the quotient is not
  modelled.
- Calls.Merge: it covers only the three keys the dialer ever patches
  (`status`, `endedAt`, `durationSec`), not an arbitrary `Partial<HistoryEntry>`.
- LegacyApp.PlaceCall: it states the app-level effects and the invalid-number
  message. The remaining branches are those of `ServerCall.PlaceCall` with
  `Variant` `Legacy`.
- LegacyApp.PollTick: it states the app-level effects and the polled base. The
  branches of a tick are those of `ServerCall.PollTick`.
- LegacyApp.Hangup: it states the app-level effects, the completed status and
  the refusal text. The remaining branches are those of `ServerCall.Hangup`.
- WebCall.FormDecode: only `+` is decoded. Percent escapes such as `%2B` are
  kept as written, and keys are compared undecoded.
- The legacy app's own pool parsing and caller-ID effect (src/App.tsx:60-94)
  are not repeated. They are the ones of `Settings`.
- Ledger.AddAllKeepsNewest: it requires a starting ledger within the 500-entry
  cap. A longer stored ledger is only ever shortened by `Add`.

=== FILE: browser_panel.dfy ===
/**
 * The self-contained browser-call panel of src/pages/TestPage.tsx, also found,
 * with small differences, in the legacy src/App.tsx: `registerClient`,
 * `callFromBrowser`, `hangupBrowser` and the SDK events they subscribe to. The
 * test page falls back to the first pool number and logs each call; the legacy
 * app falls back to its server-call caller ID and logs nothing.
 */
module BrowserPanel {
  import opened Wrappers
  import opened Strings
  import opened Calls
  import Ledger
  import Settings
  import D = Dialer

  datatype Panel = Panel(
    device: Option<D.Device>,
    ready: bool,
    active: Option<D.Call>,
    browserTo: string,
    browserFrom: string,
    sid: Option<string>,
    status: Option<string>,
    error: Option<string>)

  const InsecureText := "Browser calling requires HTTPS (use CloudFront)."
  const MissingBaseText := "Set API Base URL first."
  const InvalidText := "Enter a valid E.164 number for Browser Call."

  function NotReadyText(v: Variant): string {
    match v
    case Pages => "Click \"Enable mic & register\" first."
    case Legacy => "Click \U{201C}Enable mic & register\U{201D} first."
  }

  /** The identity a token is requested for: `agent || "agent"`. */
  function Identity(agent: string): (r: string)
    ensures r != ""
    ensures agent != "" ==> r == agent
  {
    Or(agent, "agent")
  }

  /**
   * `registerClient`: the origin must be secure, then the API base non-empty;
   * then a token is requested for the identity and the device is kept once
   * `register()` resolves. Every failure lands in the error slot.
   */
  function RegisterClient(p: Panel, loc: D.Location, apiBase: string, agent: string,
                          token: D.TokenReply, register: D.Outcome): (r: (Panel, Option<Request>))
    ensures !D.Secure(loc) ==> r == (p.(error := Some(InsecureText)), None)
    ensures D.Secure(loc) && apiBase == "" ==> r == (p.(error := Some(MissingBaseText)), None)
    ensures r.1.Some? <==> D.Secure(loc) && apiBase != ""
    ensures r.1.Some? ==> r.1.value == PostToken(apiBase, Identity(agent))
    ensures r.1.Some? && token.Issued? && register.Resolves? ==>
      r.0 == p.(device := Some(D.Device(Identity(agent))), error := None)
    ensures r.1.Some? && !(token.Issued? && register.Resolves?) ==>
      r.0.error.Some? && r.0 == p.(error := r.0.error)
    ensures r.1.Some? && token.TokenRefused? ==> r.0 == p.(error := Some(Shown(TokenErrorText(token.body))))
    ensures r.1.Some? && token.TokenThrew? ==> r.0 == p.(error := Some(Shown(token.text)))
    ensures r.1.Some? && token.Issued? && register.Throws? ==> r.0 == p.(error := Some(Shown(register.text)))
  {
    var cleared := p.(error := None);
    if !D.Secure(loc) then (cleared.(error := Some(InsecureText)), None)
    else if apiBase == "" then (cleared.(error := Some(MissingBaseText)), None)
    else
      var identity := Identity(agent);
      var request := Some(PostToken(apiBase, identity));
      match token
      case TokenRefused(body) => (cleared.(error := Some(Shown(TokenErrorText(body)))), request)
      case TokenThrew(text) => (cleared.(error := Some(Shown(text))), request)
      case Issued(_) =>
        match register
        case Throws(text) => (cleared.(error := Some(Shown(text))), request)
        case Resolves => (cleared.(device := Some(D.Device(identity))), request)
  }

  /** The device's `registered` event. */
  function OnRegistered(p: Panel): (r: Panel)
    ensures r.ready && r.(ready := p.ready) == p
  {
    p.(ready := true)
  }

  /** The device's `error` event: shown, nothing torn down. */
  function OnDeviceError(p: Panel, message: string): (r: Panel)
    ensures r.error == Some("Device error: " + message)
    ensures r.(error := p.error) == p
  {
    p.(error := Some("Device error: " + message))
  }

  /** The `From` parameter: the chosen caller ID, else the variant's fallback. */
  function BrowserFromParam(v: Variant, browserFrom: string, pool: seq<string>, fromNumber: string): (r: string)
    ensures browserFrom != "" ==> r == browserFrom
    ensures browserFrom == "" && v == Pages ==> r == Settings.First(pool)
    ensures browserFrom == "" && v == Legacy ==> r == fromNumber
  {
    match v
    case Pages => Or(browserFrom, Settings.First(pool))
    case Legacy => Or(browserFrom, fromNumber)
  }

  datatype Step = Step(panel: Panel, ledger: seq<Entry>, placed: Option<D.Call>)

  /**
   * `callFromBrowser`: the device must exist and be ready, and only then is the
   * number checked; neither failure logs anything. A connected call becomes
   * active; the test page also shows it in progress and logs a `client-<ms>`
   * entry with the `From` it used.
   */
  function CallFromBrowser(v: Variant, p: Panel, ledger: seq<Entry>, pool: seq<string>, fromNumber: string,
                           agent: string, now: Instant, connect: D.Outcome): (r: Step)
    ensures p.device.None? || !p.ready ==> r == Step(p.(error := Some(NotReadyText(v))), ledger, None)
    ensures p.device.Some? && p.ready && !IsE164(p.browserTo) ==>
      r == Step(p.(error := Some(InvalidText)), ledger, None)
    ensures p.device.Some? && p.ready && IsE164(p.browserTo) && connect.Throws? ==>
      r == Step(p.(error := Some(Shown(connect.text))), ledger, None)
    ensures r.placed.Some? <==> p.device.Some? && p.ready && IsE164(p.browserTo) && connect.Resolves?
    ensures r.placed.Some? ==>
      r.placed.value == D.Call(p.browserTo, BrowserFromParam(v, p.browserFrom, pool, fromNumber))
      && r.panel.active == r.placed && r.panel.error.None?
    ensures v == Legacy ==> r.ledger == ledger
    ensures v == Legacy && r.placed.Some? ==> r.panel == p.(active := r.placed, error := None)
    ensures v == Pages && r.placed.Some? ==>
      r.panel == p.(status := Some("in-progress"), active := r.placed, sid := Some(ClientSid(now.ms)), error := None)
    ensures v == Pages && r.placed.Some? ==>
      && r.panel.sid == Some(ClientSid(now.ms)) && r.panel.status == Some("in-progress")
      && |r.ledger| == Ledger.Min(|ledger| + 1, Ledger.Cap)
      && r.ledger[0] == Entry(ClientSid(now.ms), p.browserTo, r.placed.value.from, Or(agent, "\U{2014}"),
                              "(Browser call)", now.iso, None, "in-progress", None)
      && r.ledger[1..] == ledger[..|r.ledger| - 1]
    ensures r.placed.None? ==> r.ledger == ledger && r.panel.active == p.active
  {
    var cleared := p.(error := None);
    if p.device.None? || !p.ready then Step(cleared.(error := Some(NotReadyText(v))), ledger, None)
    else if !IsE164(p.browserTo) then Step(cleared.(error := Some(InvalidText)), ledger, None)
    else
      var call := D.Call(p.browserTo, BrowserFromParam(v, p.browserFrom, pool, fromNumber));
      match connect
      case Throws(text) => Step(cleared.(error := Some(Shown(text))), ledger, None)
      case Resolves =>
        match v
        case Legacy => Step(cleared.(active := Some(call)), ledger, Some(call))
        case Pages =>
          var sid := ClientSid(now.ms);
          var entry := Entry(sid, call.to, call.from, Or(agent, "\U{2014}"), "(Browser call)", now.iso,
                             None, "in-progress", None);
          Step(cleared.(status := Some("in-progress"), active := Some(call), sid := Some(sid)),
               Ledger.Add(ledger, entry), Some(call))
  }

  /** The call's `disconnect` event: no active call; the test page shows completed. */
  function OnCallDisconnect(v: Variant, p: Panel): (r: Panel)
    ensures r.active.None?
    ensures v == Pages ==> r == p.(active := None, status := Some("completed"))
    ensures v == Legacy ==> r == p.(active := None)
  {
    match v
    case Pages => p.(active := None, status := Some("completed"))
    case Legacy => p.(active := None)
  }

  /** `hangupBrowser`: nothing without a call; otherwise disconnects it and clears it at once. */
  function HangupBrowser(v: Variant, p: Panel): (r: (Panel, Option<D.Call>))
    ensures p.active.None? ==> r == (p, None)
    ensures p.active.Some? ==> r.1 == p.active && r.0 == OnCallDisconnect(v, p)
  {
    if p.active.None? then (p, None) else (OnCallDisconnect(v, p), p.active)
  }

  /** Only a ready, registered device can hold a call. */
  predicate Wellformed(p: Panel) {
    p.active.Some? ==> p.device.Some? && p.ready
  }

  /** Every panel transition and event keeps the panel well formed. */
  lemma TransitionsKeepWellformed(v: Variant, p: Panel, ledger: seq<Entry>, loc: D.Location, apiBase: string,
                                  agent: string, token: D.TokenReply, register: D.Outcome, message: string,
                                  pool: seq<string>, fromNumber: string, now: Instant, connect: D.Outcome)
    requires Wellformed(p)
    ensures Wellformed(RegisterClient(p, loc, apiBase, agent, token, register).0)
    ensures Wellformed(OnRegistered(p))
    ensures Wellformed(OnDeviceError(p, message))
    ensures Wellformed(CallFromBrowser(v, p, ledger, pool, fromNumber, agent, now, connect).panel)
    ensures Wellformed(OnCallDisconnect(v, p))
    ensures Wellformed(HangupBrowser(v, p).0)
  {
  }

  /** The `disconnect` event that follows a hang-up changes nothing more. */
  lemma HangupThenDisconnect(v: Variant, p: Panel)
    requires p.active.Some?
    ensures OnCallDisconnect(v, HangupBrowser(v, p).0) == HangupBrowser(v, p).0
  {
  }

  /** A panel call places nothing unless the device was ready, so a second device never appears. */
  lemma CallNeedsRegistration(v: Variant, p: Panel, ledger: seq<Entry>, pool: seq<string>, fromNumber: string,
                              agent: string, now: Instant, connect: D.Outcome)
    requires p.device.None?
    ensures var r := CallFromBrowser(v, p, ledger, pool, fromNumber, agent, now, connect);
      r.placed.None? && r.ledger == ledger && r.panel.error == Some(NotReadyText(v))
  {
  }
}

=== FILE: calls.dfy ===
/**
 * The shared vocabulary of the dialer (src/context/DialerContext.tsx, repeated in
 * src/App.tsx): call statuses, the E.164 check, ledger entries and patches, the
 * duration formula, the backend's error conventions and the requests sent to it.
 */
module Calls {
  import opened Wrappers
  import opened Strings

  /** The statuses after which a call can no longer change. */
  const TerminalStatuses: set<string> := {"completed", "failed", "canceled", "busy", "no-answer"}

  /** Statuses are an open set of strings; unknown ones pass through as non-terminal. */
  predicate IsTerminal(status: string) {
    status in TerminalStatuses
  }

  /** Exactly the five end states are terminal; the live states and unknown values are not. */
  lemma TerminalStatusIff(status: string)
    ensures IsTerminal(status) <==>
      status == "completed" || status == "failed" || status == "canceled" || status == "busy" || status == "no-answer"
    ensures !IsTerminal("queued") && !IsTerminal("ringing") && !IsTerminal("in-progress") && !IsTerminal("")
  {
  }

  /** The language of `/^\+[1-9]\d{7,14}$/`: a `+`, a digit 1-9, then 7 to 14 more digits. */
  predicate IsE164(s: string) {
    && 9 <= |s| <= 16
    && s[0] == '+'
    && '1' <= s[1] <= '9'
    && forall i | 2 <= i < |s| :: IsDigit(s[i])
  }

  /** A left-to-right scan of `s` against the pattern, as a regular-expression engine runs it. */
  method MatchE164(s: string) returns (ok: bool)
    ensures ok <==> IsE164(s)
  {
    if |s| < 2 || s[0] != '+' || !('1' <= s[1] <= '9') {
      return false;
    }
    var i := 2;
    while i < |s| && IsDigit(s[i])
      invariant 2 <= i <= |s|
      invariant forall j | 2 <= j < i :: IsDigit(s[j])
    {
      i := i + 1;
    }
    // the digits after the leading one must run to the end and number 7 to 14
    ok := i == |s| && 7 <= i - 2 <= 14;
  }

  /** An instant of the browser clock: epoch milliseconds and their `toISOString()` text. */
  datatype Instant = Instant(ms: nat, iso: string)

  /** One row of the call history. */
  datatype Entry = Entry(
    sid: string,
    to: string,
    from: string,
    agent: string,
    message: string,
    startedAt: string,
    endedAt: Option<string>,
    status: string,
    durationSec: Option<nat>)

  /** One key of a `Partial<HistoryEntry>`: absent, or present with a value (possibly `undefined`). */
  datatype Field<T> = Keep | Put(value: T)

  /** The keys the dialer ever patches: status, endedAt and durationSec. */
  datatype Patch = Patch(status: Field<string>, endedAt: Field<Option<string>>, durationSec: Field<Option<nat>>)

  function Apply<T>(f: Field<T>, current: T): T {
    match f
    case Keep => current
    case Put(v) => v
  }

  /** `{ ...e, ...p }`: present keys of the patch win, everything else is kept. */
  function Merge(e: Entry, p: Patch): (r: Entry)
    ensures r.sid == e.sid && r.to == e.to && r.from == e.from && r.agent == e.agent
    ensures r.message == e.message && r.startedAt == e.startedAt
    ensures p.status.Put? ==> r.status == p.status.value
    ensures p.status.Keep? ==> r.status == e.status
    ensures p.endedAt.Put? ==> r.endedAt == p.endedAt.value
    ensures p.endedAt.Keep? ==> r.endedAt == e.endedAt
    ensures p.durationSec.Put? ==> r.durationSec == p.durationSec.value
    ensures p.durationSec.Keep? ==> r.durationSec == e.durationSec
  {
    e.(status := Apply(p.status, e.status),
       endedAt := Apply(p.endedAt, e.endedAt),
       durationSec := Apply(p.durationSec, e.durationSec))
  }

  /** Merging the same patch twice is the same as merging it once. */
  lemma MergeIdempotent(e: Entry, p: Patch)
    ensures Merge(Merge(e, p), p) == Merge(e, p)
  {
  }

  /**
   * `startRef ? Math.max(0, Math.round((endMs - startRef) / 1000)) : undefined`:
   * whole seconds to the nearest, halves rounded up, never negative; absent when
   * there is no start time or the start time is 0 (a falsy number).
   */
  function Duration(startMs: Option<nat>, endMs: nat): (r: Option<nat>)
    ensures r.Some? <==> startMs.Some? && startMs.value != 0
    ensures r.Some? && endMs <= startMs.value ==> r.value == 0
    ensures r.Some? && endMs > startMs.value ==>
      r.value * 1000 - 500 <= endMs - startMs.value < r.value * 1000 + 500
  {
    match startMs
    case None => None
    case Some(start) =>
      if start == 0 then None
      else
        var d := endMs - start;
        if d <= 0 then Some(0) else Some((d + 500) / 1000)
  }

  /** The local identifier `client-<ms>` of a browser call. */
  function ClientSid(ms: nat): string {
    "client-" + NatToString(ms)
  }

  /** Browser calls started at different instants get different identifiers. */
  lemma ClientSidInjective(a: nat, b: nat)
    requires ClientSid(a) == ClientSid(b)
    ensures a == b
  {
    assert NatToString(a) == ClientSid(a)[7..];
    assert NatToString(b) == ClientSid(b)[7..];
    NatToStringInjective(a, b);
  }

  /** A JSON value as far as the error conventions look at it. */
  datatype JsValue = Undefined | Str(s: string) | NonString(truthy: bool, text: string)

  predicate Truthy(v: JsValue) {
    match v
    case Undefined => false
    case Str(s) => s != ""
    case NonString(t, _) => t
  }

  /** JavaScript `String(v)`. */
  function Text(v: JsValue): string {
    match v
    case Undefined => "undefined"
    case Str(s) => s
    case NonString(_, t) => t
  }

  /** A non-2xx reply body: its `detail` and `message` keys and its `JSON.stringify` text. */
  datatype ErrorBody = ErrorBody(detail: JsValue, message: JsValue, json: string)

  /** Call and hang-up errors: a string `detail`, else a truthy `message`, else the payload. */
  function CallErrorText(b: ErrorBody): (r: string)
    ensures b.detail.Str? ==> r == b.detail.s
    ensures !b.detail.Str? && Truthy(b.message) ==> r == Text(b.message)
    ensures !b.detail.Str? && !Truthy(b.message) ==> r == b.json
  {
    if b.detail.Str? then b.detail.s
    else if Truthy(b.message) then Text(b.message)
    else b.json
  }

  /** Token errors: a truthy `detail`, else a truthy `message`, else a fixed text. */
  function TokenErrorText(b: ErrorBody): (r: string)
    ensures Truthy(b.detail) ==> r == Text(b.detail)
    ensures !Truthy(b.detail) && Truthy(b.message) ==> r == Text(b.message)
    ensures !Truthy(b.detail) && !Truthy(b.message) ==> r == "Token error"
  {
    if Truthy(b.detail) then Text(b.detail)
    else if Truthy(b.message) then Text(b.message)
    else "Token error"
  }

  /**
   * The two conventions disagree: an empty `detail` string wins for a call but is
   * skipped for a token, and a non-string `detail` is skipped for a call but wins
   * for a token.
   */
  lemma ErrorConventionsDiffer()
    ensures var b := ErrorBody(Str(""), Str("bad"), "{}");
      CallErrorText(b) == "" && TokenErrorText(b) == "bad"
    ensures var b := ErrorBody(NonString(true, "[object Object]"), Undefined, "{}");
      CallErrorText(b) == "{}" && TokenErrorText(b) == "[object Object]"
  {
  }

  /**
   * Where the two conventions agree: a non-empty string `detail`, or no usable
   * `detail` and a truthy `message`. Any disagreement comes from an empty string
   * `detail`, a truthy non-string `detail`, or a body with neither.
   */
  lemma ErrorConventionsAgree(b: ErrorBody)
    ensures b.detail.Str? && b.detail.s != "" ==> CallErrorText(b) == b.detail.s && TokenErrorText(b) == b.detail.s
    ensures !b.detail.Str? && !Truthy(b.detail) && Truthy(b.message) ==>
      CallErrorText(b) == Text(b.message) && TokenErrorText(b) == Text(b.message)
    ensures CallErrorText(b) != TokenErrorText(b) ==>
      b.detail == Str("") || (b.detail.NonString? && b.detail.truthy) || (!Truthy(b.detail) && !Truthy(b.message))
    ensures !b.detail.NonString? && !b.message.NonString? ==> TokenErrorText(b) != ""
  {
  }

  /** `e?.message || String(e)` for an `Error`: its message, or `"Error"` when that is empty. */
  function Shown(message: string): (r: string)
    ensures r != ""
    ensures message != "" ==> r == message
    ensures message == "" ==> r == "Error"
  {
    if message != "" then message else "Error"
  }

  /** The backend requests the dialer issues, with the API base they are sent to. */
  datatype Request =
    | PostCall(base: string, to: string, fromNumber: string, message: string)
    | GetStatus(base: string, sid: string)
    | PostHangup(base: string, sid: string)
    | PostToken(base: string, identity: string)

  /** The two copies of the dialer: the routed pages and the legacy single-page `App`. */
  datatype Variant = Pages | Legacy
}

=== FILE: csv.dfy ===
/**
 * The pure part of `exportCsv` (src/components/HistoryTable.tsx, repeated in
 * src/App.tsx): the ledger as a header record and one record per entry, every
 * field quoted with embedded quotes doubled as in section 2, rule 7 of RFC 4180,
 * fields joined by `,` and records by a bare LF. `ReadCsv` is an RFC 4180 reader
 * for the same dialect, and the export is proved to read back through it.
 */
module Csv {
  import opened Wrappers
  import opened Strings
  import opened Calls

  const Header: seq<string> :=
    ["sid", "agent", "to", "from", "status", "startedAt", "endedAt", "durationSec", "message"]

  /** `s.replace(/\n/g, " ")`. */
  function NewlinesToSpaces(s: string): (r: string)
    ensures |r| == |s|
    ensures forall i | 0 <= i < |s| :: r[i] == (if s[i] == '\n' then ' ' else s[i])
    ensures '\n' !in r
  {
    ReplaceChar(s, '\n', ' ')
  }

  /** The nine exported fields of an entry, in header order. */
  function RowFields(e: Entry): (r: seq<string>)
    ensures |r| == |Header|
  {
    [ e.sid, e.agent, e.to, e.from, e.status, e.startedAt,
      e.endedAt.GetOr(""),
      if e.durationSec.Some? then NatToString(e.durationSec.value) else "",
      NewlinesToSpaces(e.message) ]
  }

  /** `s.replace(/"/g, '""')`. */
  function DoubleQuotes(s: string): string
    decreases |s|
  {
    if |s| == 0 then ""
    else (if s[0] == '"' then "\"\"" else [s[0]]) + DoubleQuotes(s[1..])
  }

  /** `esc`: the field wrapped in quotes, embedded quotes doubled. */
  function Esc(s: string): (r: string)
    ensures |r| >= 2 && r[0] == '"' && r[|r| - 1] == '"'
  {
    "\"" + DoubleQuotes(s) + "\""
  }

  function EscAll(fields: seq<string>): (r: seq<string>)
    ensures |r| == |fields|
    decreases |fields|
  {
    if |fields| == 0 then [] else [Esc(fields[0])] + EscAll(fields[1..])
  }

  /** `arr.map(esc).join(",")`. */
  function Record(fields: seq<string>): string {
    Join(EscAll(fields), ",")
  }

  function Records(table: seq<seq<string>>): (r: seq<string>)
    ensures |r| == |table|
    decreases |table|
  {
    if |table| == 0 then [] else [Record(table[0])] + Records(table[1..])
  }

  function Rows(h: seq<Entry>): (r: seq<seq<string>>)
    ensures |r| == |h|
    ensures forall i | 0 <= i < |h| :: r[i] == RowFields(h[i])
    decreases |h|
  {
    if |h| == 0 then [] else [RowFields(h[0])] + Rows(h[1..])
  }

  /** The header followed by one row per entry, in ledger order. */
  function Table(h: seq<Entry>): seq<seq<string>> {
    [Header] + Rows(h)
  }

  /** The exported text: `[header, ...rows].map(...).join("\n")`. */
  function Export(h: seq<Entry>): string {
    Join(Records(Table(h)), "\n")
  }

  /**
   * Reads the rest of a quoted field, after its opening quote: a doubled quote
   * stands for one quote and a single quote closes the field. Returns the value
   * and the text after the closing quote.
   */
  function ReadQuoted(s: string): (r: Option<(string, string)>)
    ensures r.Some? ==> |r.value.1| < |s|
    decreases |s|
  {
    if |s| == 0 then None
    else if s[0] == '"' then
      if |s| > 1 && s[1] == '"' then
        match ReadQuoted(s[2..])
        case None => None
        case Some((v, rest)) => Some(("\"" + v, rest))
      else Some(("", s[1..]))
    else
      match ReadQuoted(s[1..])
      case None => None
      case Some((v, rest)) => Some(([s[0]] + v, rest))
  }

  /** RFC 4180 unescaping of one whole quoted field. */
  function Unescape(field: string): Option<string> {
    if |field| > 0 && field[0] == '"' then
      match ReadQuoted(field[1..])
      case Some((v, rest)) => if rest == "" then Some(v) else None
      case None => None
    else None
  }

  /**
   * Reads one record of quoted fields. Returns its fields and, unless the text
   * ended, the text after the record's line break.
   */
  function ReadRecord(s: string): (r: Option<(seq<string>, Option<string>)>)
    ensures r.Some? ==> |r.value.0| > 0
    ensures r.Some? && r.value.1.Some? ==> |r.value.1.value| < |s|
    decreases |s|
  {
    if |s| == 0 || s[0] != '"' then None
    else
      match ReadQuoted(s[1..])
      case None => None
      case Some((v, rest)) =>
        if |rest| == 0 then Some(([v], None))
        else if rest[0] == '\n' then Some(([v], Some(rest[1..])))
        else if rest[0] == ',' then
          match ReadRecord(rest[1..])
          case None => None
          case Some((vs, next)) => Some(([v] + vs, next))
        else None
  }

  /** Reads a whole CSV text of quoted fields, records separated by line breaks. */
  function ReadCsv(s: string): Option<seq<seq<string>>>
    decreases |s|
  {
    match ReadRecord(s)
    case None => None
    case Some((fields, None)) => Some([fields])
    case Some((fields, Some(rest))) =>
      match ReadCsv(rest)
      case None => None
      case Some(records) => Some([fields] + records)
  }

  /** After a doubled value and its closing quote, the reader stops exactly at the closing quote. */
  lemma {:induction false} ReadQuotedDoubled(v: string, rest: string)
    requires |rest| == 0 || rest[0] != '"'
    ensures ReadQuoted(DoubleQuotes(v) + "\"" + rest) == Some((v, rest))
    decreases |v|
  {
    var s := DoubleQuotes(v) + "\"" + rest;
    if |v| == 0 {
      assert s == "\"" + rest;
      assert s[1..] == rest;
    } else {
      ReadQuotedDoubled(v[1..], rest);
      var tail := DoubleQuotes(v[1..]) + "\"" + rest;
      if v[0] == '"' {
        assert s == "\"\"" + tail;
        assert s[2..] == tail;
      } else {
        assert s == [v[0]] + tail;
        assert s[1..] == tail;
      }
      assert v == [v[0]] + v[1..];
    }
  }

  /** `esc` is undone by RFC 4180 unescaping. */
  lemma EscRoundTrip(s: string)
    ensures Unescape(Esc(s)) == Some(s)
  {
    ReadQuotedDoubled(s, "");
    assert Esc(s)[1..] == DoubleQuotes(s) + "\"" + "";
  }

  /** `Record` unfolded one field at a time. */
  lemma RecordCons(fields: seq<string>)
    requires |fields| > 0
    ensures |fields| == 1 ==> Record(fields) == Esc(fields[0])
    ensures |fields| > 1 ==> Record(fields) == Esc(fields[0]) + "," + Record(fields[1..])
  {
    assert EscAll(fields)[0] == Esc(fields[0]);
    assert EscAll(fields)[1..] == EscAll(fields[1..]);
  }

  /** `ReadRecord` once the first quoted field is known. */
  lemma ReadRecordStep(s: string, v: string, after: string)
    requires |s| > 0 && s[0] == '"' && ReadQuoted(s[1..]) == Some((v, after))
    ensures |after| == 0 ==> ReadRecord(s) == Some(([v], None))
    ensures |after| > 0 && after[0] == '\n' ==> ReadRecord(s) == Some(([v], Some(after[1..])))
  {
  }

  /** `ReadRecord` once the first quoted field and the rest of the record are known. */
  lemma ReadRecordCons(s: string, v: string, after: string, vs: seq<string>, next: Option<string>)
    requires |s| > 0 && s[0] == '"' && ReadQuoted(s[1..]) == Some((v, after))
    requires |after| > 0 && after[0] == ','
    requires ReadRecord(after[1..]) == Some((vs, next))
    ensures ReadRecord(s) == Some(([v] + vs, next))
  {
  }

  /** The tail a record's reader stops at: nothing, or the text after the line break. */
  function TailAfter(tail: string): Option<string> {
    if |tail| == 0 then None else Some(tail[1..])
  }

  /** A one-field record followed by a line break or by nothing reads back as that field. */
  lemma ReadRecordOne(f: string, tail: string)
    requires |tail| == 0 || tail[0] == '\n'
    ensures ReadRecord(Record([f]) + tail) == Some(([f], TailAfter(tail)))
  {
    RecordCons([f]);
    EscThenTail(f, tail);
    ReadRecordStep(Esc(f) + tail, f, tail);
  }

  lemma Regroup(a: string, b: string, c: string, d: string)
    ensures a + b + c + d == a + (b + (c + d))
  {
  }

  /** A quoted field, a comma and a readable rest read back as the field followed by the rest's fields. */
  lemma ReadFieldThenRest(f: string, rest: string, vs: seq<string>, next: Option<string>)
    requires ReadRecord(rest) == Some((vs, next))
    ensures ReadRecord(Esc(f) + ("," + rest)) == Some(([f] + vs, next))
  {
    var after := "," + rest;
    EscThenTail(f, after);
    assert after[1..] == rest;
    ReadRecordCons(Esc(f) + after, f, after, vs, next);
  }

  /** A record of several fields reads back once the record after its first field does. */
  lemma ReadRecordMore(fields: seq<string>, tail: string)
    requires |fields| > 1
    requires ReadRecord(Record(fields[1..]) + tail) == Some((fields[1..], TailAfter(tail)))
    ensures ReadRecord(Record(fields) + tail) == Some((fields, TailAfter(tail)))
  {
    var f, rest := fields[0], Record(fields[1..]);
    RecordCons(fields);
    Regroup(Esc(f), ",", rest, tail);
    ReadFieldThenRest(f, rest + tail, fields[1..], TailAfter(tail));
    assert fields == [f] + fields[1..];
  }

  /** A record followed by a line break or by nothing reads back as its fields. */
  lemma {:induction false} ReadRecordOf(fields: seq<string>, tail: string)
    requires |fields| > 0
    requires |tail| == 0 || tail[0] == '\n'
    ensures ReadRecord(Record(fields) + tail) == Some((fields, TailAfter(tail)))
    decreases |fields|
  {
    if |fields| == 1 {
      ReadRecordOne(fields[0], tail);
      assert fields == [fields[0]];
    } else {
      ReadRecordOf(fields[1..], tail);
      ReadRecordMore(fields, tail);
    }
  }

  /** The quoted field at the head of a text reads back as its value. */
  lemma EscThenTail(f: string, after: string)
    requires |after| == 0 || after[0] != '"'
    ensures |Esc(f) + after| > 0 && (Esc(f) + after)[0] == '"'
    ensures ReadQuoted((Esc(f) + after)[1..]) == Some((f, after))
  {
    var s := Esc(f) + after;
    assert s[1..] == DoubleQuotes(f) + "\"" + after;
    ReadQuotedDoubled(f, after);
  }

  /** A table of non-empty records, exported, reads back as the same table. */
  lemma {:induction false} ReadCsvOf(table: seq<seq<string>>)
    requires |table| > 0
    requires forall i | 0 <= i < |table| :: |table[i]| > 0
    ensures ReadCsv(Join(Records(table), "\n")) == Some(table)
    decreases |table|
  {
    var recs := Records(table);
    assert recs[0] == Record(table[0]);
    assert recs[1..] == Records(table[1..]);
    if |table| == 1 {
      assert Join(recs, "\n") == Record(table[0]) + "";
      ReadRecordOf(table[0], "");
      assert table == [table[0]];
    } else {
      var rest := Join(Records(table[1..]), "\n");
      assert Join(recs, "\n") == Record(table[0]) + ("\n" + rest);
      ReadRecordOf(table[0], "\n" + rest);
      assert ("\n" + rest)[1..] == rest;
      ReadCsvOf(table[1..]);
      assert table == [table[0]] + table[1..];
    }
  }

  lemma TableRecordsNonEmpty(h: seq<Entry>)
    ensures forall i | 0 <= i < |Table(h)| :: |Table(h)[i]| == |Header|
  {
    var t := Table(h);
    forall i | 0 <= i < |t|
      ensures |t[i]| == |Header|
    {
      if i > 0 {
        assert t[i] == Rows(h)[i - 1];
      }
    }
  }

  /**
   * The export is faithful: reading it back yields the header and then, for
   * each entry in ledger order, its nine fields.
   */
  lemma ExportRoundTrip(h: seq<Entry>)
    ensures ReadCsv(Export(h)) == Some(Table(h))
    ensures |Table(h)| == |h| + 1 && Table(h)[0] == Header
    ensures forall i | 0 <= i < |h| :: Table(h)[i + 1] == RowFields(h[i])
  {
    var t := Table(h);
    TableRecordsNonEmpty(h);
    ReadCsvOf(t);
  }

  /** An empty ledger exports the header record alone. */
  lemma ExportEmpty()
    ensures Export([]) == Record(Header)
    ensures ReadCsv(Export([])) == Some([Header])
  {
    assert Table([]) == [Header];
    assert Records([Header]) == [Record(Header)];
    ExportRoundTrip([]);
  }

  /**
   * Each field is recoverable from the row: the first six verbatim, a missing
   * end time or duration as an empty field, the duration as the number that was
   * stored, and the message with only its line breaks changed.
   */
  lemma RowFieldsRecoverable(e: Entry)
    ensures RowFields(e)[..6] == [e.sid, e.agent, e.to, e.from, e.status, e.startedAt]
    ensures e.endedAt.Some? ==> RowFields(e)[6] == e.endedAt.value
    ensures e.durationSec.Some? ==>
      AllDigits(RowFields(e)[7]) && ParseNat(RowFields(e)[7]) == e.durationSec.value
    ensures e.durationSec.None? ==> RowFields(e)[7] == ""
    ensures e.endedAt.None? ==> RowFields(e)[6] == ""
    ensures |RowFields(e)[8]| == |e.message| && '\n' !in RowFields(e)[8]
    ensures forall i | 0 <= i < |e.message| && e.message[i] != '\n' :: RowFields(e)[8][i] == e.message[i]
    ensures forall i | 0 <= i < |e.message| && e.message[i] == '\n' :: RowFields(e)[8][i] == ' '
  {
    if e.durationSec.Some? {
      NatToStringRoundTrip(e.durationSec.value);
    }
  }
}

=== FILE: dialer.dfy ===
/**
 * The browser-call state of src/context/DialerContext.tsx: the registered
 * device, the ready flag, the active call and the muted flag, driven by
 * `registerIfNeeded`, `startCall`, `hangup`, `toggleMute` and the SDK's
 * `registered`, `disconnect` and `mute` events. The SDK itself is an event
 * source whose outcomes are inputs.
 */
module Dialer {
  import opened Wrappers
  import opened Calls

  /** A registered voice device and the identity its token was issued for. */
  datatype Device = Device(identity: string)

  /** A browser call and the `To`/`From` parameters it was placed with. */
  datatype Call = Call(to: string, from: string)

  datatype Dialer = Dialer(device: Option<Device>, ready: bool, active: Option<Call>, muted: bool)

  const Initial := Dialer(None, false, None, false)

  /** The page origin as far as the secure-context check looks at it. */
  datatype Location = Location(protocol: string, hostname: string)

  /** Browser calling needs HTTPS unless the page is served from localhost. */
  predicate Secure(loc: Location) {
    loc.protocol == "https:" || loc.hostname == "localhost"
  }

  /** The reply to `POST /api/token`. */
  datatype TokenReply = Issued(token: string) | TokenRefused(body: ErrorBody) | TokenThrew(text: string)

  /** An awaited SDK call (`register()`, `connect()`): it resolves or throws a message. */
  datatype Outcome = Resolves | Throws(text: string)

  const InsecureText := "Browser calling requires HTTPS (CloudFront)."
  const MissingBaseText := "Missing VITE_API_BASE. Set it in .env(.local) and restart the dev server."
  const NotReadyText := "Mic/Device not ready yet."

  /** The new state, the rejection message if the promise rejects, and the request sent. */
  datatype Registration = Registration(dialer: Dialer, rejection: Option<string>, request: Option<Request>)

  /**
   * `registerIfNeeded`: nothing when a device exists or no agent is set;
   * otherwise the origin must be secure and then the API base non-empty before
   * a token is requested for the agent; the device is kept once `register()`
   * resolves.
   */
  function RegisterIfNeeded(d: Dialer, agent: string, loc: Location, apiBase: string,
                            token: TokenReply, register: Outcome): (r: Registration)
    ensures d.device.Some? || agent == "" ==> r == Registration(d, None, None)
    ensures d.device.None? && agent != "" && !Secure(loc) ==> r == Registration(d, Some(InsecureText), None)
    ensures d.device.None? && agent != "" && Secure(loc) && apiBase == "" ==>
      r == Registration(d, Some(MissingBaseText), None)
    ensures r.request.Some? <==> d.device.None? && agent != "" && Secure(loc) && apiBase != ""
    ensures r.request.Some? ==> r.request.value == PostToken(apiBase, agent)
    ensures r.dialer != d ==> r.dialer == d.(device := Some(Device(agent))) && r.rejection.None?
    ensures r.request.Some? ==> (r.rejection.None? <==> token.Issued? && register.Resolves?)
    ensures r.request.Some? && token.Issued? && register.Resolves? ==> r.dialer == d.(device := Some(Device(agent)))
    ensures r.request.Some? && !(token.Issued? && register.Resolves?) ==> r.dialer == d
    ensures r.request.Some? && token.TokenRefused? ==> r.rejection == Some(TokenErrorText(token.body))
    ensures r.request.Some? && token.TokenThrew? ==> r.rejection == Some(token.text)
    ensures r.request.Some? && token.Issued? && register.Throws? ==> r.rejection == Some(register.text)
  {
    if d.device.Some? || agent == "" then Registration(d, None, None)
    else if !Secure(loc) then Registration(d, Some(InsecureText), None)
    else if apiBase == "" then Registration(d, Some(MissingBaseText), None)
    else
      var request := Some(PostToken(apiBase, agent));
      match token
      case TokenRefused(body) => Registration(d, Some(TokenErrorText(body)), request)
      case TokenThrew(text) => Registration(d, Some(text), request)
      case Issued(_) =>
        match register
        case Throws(text) => Registration(d, Some(text), request)
        case Resolves => Registration(d.(device := Some(Device(agent))), None, request)
  }

  /** The device's `registered` event. */
  function OnRegistered(d: Dialer): (r: Dialer)
    ensures r.ready && r.device == d.device && r.active == d.active && r.muted == d.muted
  {
    d.(ready := true)
  }

  /** `startCall`: needs a device that is ready; a connected call becomes active, un-muted. */
  function StartCall(d: Dialer, to: string, fromNumber: string, connect: Outcome): (r: (Dialer, Result<Call>))
    ensures d.device.None? || !d.ready ==> r == (d, Err(NotReadyText))
    ensures d.device.Some? && d.ready && connect.Throws? ==> r == (d, Err(connect.text))
    ensures r.1.Ok? <==> d.device.Some? && d.ready && connect.Resolves?
    ensures r.1.Ok? ==>
      r.1.value == Call(to, fromNumber) && r.0 == d.(active := Some(Call(to, fromNumber)), muted := false)
  {
    if d.device.None? || !d.ready then (d, Err(NotReadyText))
    else
      match connect
      case Throws(text) => (d, Err(text))
      case Resolves =>
        var call := Call(to, fromNumber);
        (d.(active := Some(call), muted := false), Ok(call))
  }

  /** The `disconnect` event (of the device or of the call): no active call, not muted. */
  function OnDisconnect(d: Dialer): (r: Dialer)
    ensures r.active.None? && !r.muted && r.device == d.device && r.ready == d.ready
  {
    d.(active := None, muted := false)
  }

  /** The call's `mute` event: the flag follows the SDK. */
  function OnMute(d: Dialer, isMuted: bool): (r: Dialer)
    ensures r.muted == isMuted && r.device == d.device && r.ready == d.ready && r.active == d.active
  {
    d.(muted := isMuted)
  }

  /**
   * `hangup`: asks the active call, if any, to disconnect; the `disconnect` event
   * does the rest. A helper: what it promises is stated by `HangupThenDisconnect`.
   */
  function Hangup(d: Dialer): (r: Option<Call>)
    ensures r == d.active
  {
    d.active
  }

  /** `toggleMute`: nothing without a call; otherwise flips the flag and sends the new value to the call. */
  function ToggleMute(d: Dialer): (r: (Dialer, Option<bool>))
    ensures d.active.None? ==> r == (d, None)
    ensures d.active.Some? ==> r.0 == d.(muted := !d.muted) && r.1 == Some(!d.muted)
  {
    if d.active.None? then (d, None)
    else
      var next := !d.muted;
      (d.(muted := next), Some(next))
  }

  /**
   * Hanging up asks the active call to disconnect, and once its `disconnect`
   * event arrives there is nothing left to hang up or mute, while the device
   * stays registered and ready.
   */
  lemma HangupThenDisconnect(d: Dialer)
    requires Hangup(d).Some?
    ensures Hangup(d) == d.active
    ensures var e := OnDisconnect(d);
      Hangup(e).None? && ToggleMute(e) == (e, None) && !e.muted && e.device == d.device && e.ready == d.ready
  {
  }

  /** Toggling twice restores the flag, and the `mute` event echoing a toggle changes nothing. */
  lemma ToggleMuteInvolution(d: Dialer)
    ensures ToggleMute(ToggleMute(d).0).0 == d
    ensures d.active.Some? ==> OnMute(ToggleMute(d).0, ToggleMute(d).1.value) == ToggleMute(d).0
  {
  }

  /** Only a ready, registered device can hold a call. */
  predicate Wellformed(d: Dialer) {
    d.active.Some? ==> d.device.Some? && d.ready
  }

  /** Every transition keeps the dialer well formed. */
  lemma TransitionsKeepWellformed(d: Dialer, agent: string, loc: Location, apiBase: string, token: TokenReply,
                                  register: Outcome, to: string, fromNumber: string, connect: Outcome, isMuted: bool)
    requires Wellformed(d)
    ensures Wellformed(RegisterIfNeeded(d, agent, loc, apiBase, token, register).dialer)
    ensures Wellformed(OnRegistered(d))
    ensures Wellformed(StartCall(d, to, fromNumber, connect).0)
    ensures Wellformed(OnDisconnect(d))
    ensures Wellformed(OnMute(d, isMuted))
    ensures Wellformed(ToggleMute(d).0)
  {
  }

  /** Before registration a browser call fails as not ready and changes nothing. */
  lemma UnregisteredCallFails(to: string, fromNumber: string, connect: Outcome)
    ensures StartCall(Initial, to, fromNumber, connect) == (Initial, Err(NotReadyText))
  {
  }
}

=== FILE: ledger.dfy ===
/**
 * The call history (`addHistory`, `updateHistory`, `clearHistory` of
 * src/context/DialerContext.tsx, repeated in src/App.tsx): a newest-first
 * sequence of entries capped at 500. The ledger is a dumb store: it enforces
 * neither unique sids nor that terminal statuses stay terminal.
 */
module Ledger {
  import opened Calls

  const Cap: nat := 500

  function Min(a: int, b: int): int {
    if a <= b then a else b
  }

  /** `[e, ...h].slice(0, 500)`. */
  function Add(h: seq<Entry>, e: Entry): (r: seq<Entry>)
    ensures |r| == Min(|h| + 1, Cap)
    ensures r[0] == e
    ensures r[1..] == h[..|r| - 1]
  {
    ([e] + h)[..Min(|h| + 1, Cap)]
  }

  /** `h.map(r => r.sid === sid ? { ...r, ...patch } : r)`. */
  function Update(h: seq<Entry>, sid: string, patch: Patch): (r: seq<Entry>)
    ensures |r| == |h|
    ensures forall i | 0 <= i < |h| ::
      r[i] == (if h[i].sid == sid then Merge(h[i], patch) else h[i])
    decreases |h|
  {
    if |h| == 0 then []
    else
      var head := if h[0].sid == sid then Merge(h[0], patch) else h[0];
      [head] + Update(h[1..], sid, patch)
  }

  function Clear(): (r: seq<Entry>)
    ensures |r| == 0
  {
    []
  }

  /** A patch for a sid no row carries leaves the ledger as it was. */
  lemma UpdateMissing(h: seq<Entry>, sid: string, patch: Patch)
    requires forall i | 0 <= i < |h| :: h[i].sid != sid
    ensures Update(h, sid, patch) == h
  {
  }

  /** Patches never change a sid, so patching again with the same patch changes nothing. */
  lemma UpdateIdempotent(h: seq<Entry>, sid: string, patch: Patch)
    ensures Update(Update(h, sid, patch), sid, patch) == Update(h, sid, patch)
  {
    var once := Update(h, sid, patch);
    var twice := Update(once, sid, patch);
    forall i | 0 <= i < |h|
      ensures twice[i] == once[i]
    {
      if h[i].sid == sid {
        MergeIdempotent(h[i], patch);
      }
    }
  }

  /** Patching another call's entry commutes with logging a new call. */
  lemma UpdateAfterAdd(h: seq<Entry>, e: Entry, sid: string, patch: Patch)
    requires e.sid != sid
    ensures Update(Add(h, e), sid, patch) == Add(Update(h, sid, patch), e)
  {
    var left := Update(Add(h, e), sid, patch);
    var right := Add(Update(h, sid, patch), e);
    assert |left| == |right|;
    forall i | 0 <= i < |left|
      ensures left[i] == right[i]
    {
      if i > 0 {
        assert Add(h, e)[i] == h[i - 1];
        assert right[i] == Update(h, sid, patch)[i - 1];
      }
    }
  }

  /** Logs `es` in order, oldest first. */
  function AddAll(h: seq<Entry>, es: seq<Entry>): seq<Entry>
    decreases |es|
  {
    if |es| == 0 then h else AddAll(Add(h, es[0]), es[1..])
  }

  function Reverse(es: seq<Entry>): (r: seq<Entry>)
    ensures |r| == |es|
    ensures forall i | 0 <= i < |es| :: r[i] == es[|es| - 1 - i]
    decreases |es|
  {
    if |es| == 0 then [] else Reverse(es[1..]) + [es[0]]
  }

  lemma PrefixOfTruncated(a: seq<Entry>, b: seq<Entry>, k: nat, n: nat)
    requires k <= |b| && n <= |a| + k
    ensures (a + b[..k])[..n] == (a + b)[..n]
  {
  }

  /**
   * After any run of logs the ledger holds the newest entries first, the older
   * ledger after them, and nothing beyond the cap.
   */
  lemma {:induction false} AddAllKeepsNewest(h: seq<Entry>, es: seq<Entry>)
    requires |h| <= Cap
    ensures AddAll(h, es) == (Reverse(es) + h)[..Min(|es| + |h|, Cap)]
    decreases |es|
  {
    if |es| == 0 {
      assert Reverse(es) + h == h;
    } else {
      var e, rest := es[0], es[1..];
      var m := Min(|h| + 1, Cap);
      AddAllKeepsNewest(Add(h, e), rest);
      assert Add(h, e) == ([e] + h)[..m];
      PrefixOfTruncated(Reverse(rest), [e] + h, m, Min(|rest| + m, Cap));
      assert Reverse(es) == Reverse(rest) + [e];
      assert Reverse(rest) + ([e] + h) == Reverse(es) + h;
    }
  }

  /** Once 500 or more calls have been logged, the ledger is exactly the 500 newest, newest first. */
  lemma AddAllFull(h: seq<Entry>, es: seq<Entry>)
    requires |h| <= Cap && |es| >= Cap
    ensures AddAll(h, es) == Reverse(es)[..Cap]
  {
    AddAllKeepsNewest(h, es);
    assert (Reverse(es) + h)[..Cap] == Reverse(es)[..Cap];
  }
}

=== FILE: legacy_app.dfy ===
/**
 * The legacy single-page src/App.tsx: one server-call session and one
 * browser-call panel that share a single error slot, over the same ledger.
 * Its server-call and browser-call logic are the `Legacy` variants of
 * `ServerCall` and `BrowserPanel`.
 */
module LegacyApp {
  import opened Wrappers
  import opened Calls
  import Ledger
  import SC = ServerCall
  import BP = BrowserPanel
  import D = Dialer

  datatype App = App(session: SC.Session, panel: BP.Panel)

  /** The app has one `error` state; both halves show it. */
  predicate SharedError(a: App) {
    a.session.error == a.panel.error
  }

  datatype Step = Step(app: App, ledger: seq<Entry>, request: Option<Request>)

  /** A server-call transition run on the app: its error becomes the app's error. */
  function OnSession(a: App, st: SC.Step): (r: Step)
    ensures SharedError(r.app) && r.ledger == st.ledger && r.request == st.request
    ensures r.app.session == st.session && r.app.panel == a.panel.(error := st.session.error)
  {
    Step(App(st.session, a.panel.(error := st.session.error)), st.ledger, st.request)
  }

  /** `placeCall` of the app: the server-call checks in the same order, with the app's own wording. */
  function PlaceCall(a: App, ledger: seq<Entry>, apiBase: string, agent: string, to: string,
                     fromNumber: string, message: string, reply: SC.CallReply, now: Instant): (r: Step)
    ensures SharedError(r.app) && r.app.panel.(error := a.panel.error) == a.panel
    ensures r.request.None? ==> r.ledger == ledger
    ensures apiBase != "" && !IsE164(to) ==>
      r.request.None? && r.app.session.error == Some("Enter a valid E.164 number (e.g. +447700900123).")
  {
    OnSession(a, SC.PlaceCall(Legacy, a.session, ledger, apiBase, agent, to, fromNumber, message, reply, now))
  }

  /**
   * A tick of the app's polling interval. Its closure captured `apiBase` when
   * the call was placed, so editing the base mid-call does not move the polling.
   */
  function PollTick(a: App, ledger: seq<Entry>, reply: SC.StatusReply, now: Instant): (r: Step)
    ensures SharedError(r.app) && r.app.panel.(error := a.panel.error) == a.panel
    ensures |r.ledger| == |ledger|
    ensures r.app.session.polling.Some? ==> r.ledger == ledger
    ensures a.session.polling.Some? ==>
      r.request == Some(GetStatus(a.session.polling.value.base, a.session.polling.value.sid))
  {
    OnSession(a, SC.PollTick(a.session, ledger, reply, now))
  }

  function Hangup(a: App, ledger: seq<Entry>, apiBase: string, reply: SC.HangupReply, now: Instant): (r: Step)
    ensures SharedError(r.app) && r.app.panel.(error := a.panel.error) == a.panel
    ensures a.session.sid.None? && SharedError(a) ==> r == Step(a, ledger, None)
    ensures r.request.Some? && reply.HungUp? ==> r.app.session.status == Some("completed")
    ensures !reply.HungUp? ==> r.ledger == ledger
    ensures r.request.Some? && reply.HangupRefused? ==> r.app.panel.error == Some(SC.RefusalText(reply.body))
  {
    OnSession(a, SC.Hangup(a.session, ledger, apiBase, reply, now))
  }

  function Reset(a: App): (r: App)
    ensures SharedError(r) && r.session.error.None? && r.session.polling.None? && r.session.sid.None?
    ensures r.session == SC.Idle
    ensures r.panel.(error := a.panel.error) == a.panel
  {
    App(SC.Reset(a.session), a.panel.(error := None))
  }

  /** A browser-panel transition run on the app: its error becomes the app's error. */
  function OnPanel(a: App, p: BP.Panel): (r: App)
    ensures SharedError(r) && r.panel == p && r.session == a.session.(error := p.error)
  {
    App(a.session.(error := p.error), p)
  }

  function RegisterClient(a: App, loc: D.Location, apiBase: string, agent: string,
                          token: D.TokenReply, register: D.Outcome): (r: (App, Option<Request>))
    ensures SharedError(r.0) && r.0.session.(error := a.session.error) == a.session
    ensures !D.Secure(loc) ==> r.0.session.error == Some(BP.InsecureText) && r.1.None?
  {
    var (p, request) := BP.RegisterClient(a.panel, loc, apiBase, agent, token, register);
    (OnPanel(a, p), request)
  }

  /** `callFromBrowser` of the app: never writes the ledger; its caller ID falls back to the server form's. */
  function CallFromBrowser(a: App, ledger: seq<Entry>, fromNumber: string, agent: string,
                           now: Instant, connect: D.Outcome): (r: (App, seq<Entry>))
    ensures SharedError(r.0) && r.0.session.(error := a.session.error) == a.session
    ensures r.1 == ledger
    ensures r.0.panel.active.Some? && r.0.panel.active != a.panel.active ==>
      r.0.panel.active.value.from == (if a.panel.browserFrom != "" then a.panel.browserFrom else fromNumber)
  {
    var st := BP.CallFromBrowser(Legacy, a.panel, ledger, [], fromNumber, agent, now, connect);
    (OnPanel(a, st.panel), st.ledger)
  }

  function HangupBrowser(a: App): (r: (App, Option<D.Call>))
    ensures r.0.panel.active.None? && r.1 == a.panel.active
    ensures r.0.session == a.session && r.0.panel == a.panel.(active := None)
  {
    var (p, call) := BP.HangupBrowser(Legacy, a.panel);
    (App(a.session, p), call)
  }

  /** The call's `disconnect` event in the app: only the active call is cleared. */
  function OnCallDisconnect(a: App): (r: App)
    ensures r.panel.active.None? && r.session == a.session && r.panel == a.panel.(active := None)
  {
    App(a.session, BP.OnCallDisconnect(Legacy, a.panel))
  }

  /** The device's `registered` event: the panel becomes ready; the error slot is untouched. */
  function OnRegistered(a: App): (r: App)
    ensures r.panel.ready && r.session == a.session && r.panel == a.panel.(ready := true)
  {
    App(a.session, BP.OnRegistered(a.panel))
  }

  /** The device's `error` event: `Device error: <message>` in the shared slot, nothing else changes. */
  function OnDeviceError(a: App, message: string): (r: App)
    ensures SharedError(r) && r.panel.error == Some("Device error: " + message)
    ensures r.panel.(error := a.panel.error) == a.panel && r.session.(error := a.session.error) == a.session
  {
    OnPanel(a, BP.OnDeviceError(a.panel, message))
  }

  /** The Clear button: `setHistory([])`. */
  function ClearHistory(ledger: seq<Entry>): (r: seq<Entry>)
    ensures |r| == 0
  {
    Ledger.Clear()
  }

  /** Every transition keeps the single error slot shared. */
  lemma TransitionsShareError(a: App, ledger: seq<Entry>, apiBase: string, agent: string, to: string,
                              fromNumber: string, message: string, call: SC.CallReply, status: SC.StatusReply,
                              hangup: SC.HangupReply, now: Instant, loc: D.Location, token: D.TokenReply,
                              register: D.Outcome, connect: D.Outcome)
    requires SharedError(a)
    ensures SharedError(PlaceCall(a, ledger, apiBase, agent, to, fromNumber, message, call, now).app)
    ensures SharedError(PollTick(a, ledger, status, now).app)
    ensures SharedError(Hangup(a, ledger, apiBase, hangup, now).app)
    ensures SharedError(Reset(a))
    ensures SharedError(RegisterClient(a, loc, apiBase, agent, token, register).0)
    ensures SharedError(CallFromBrowser(a, ledger, fromNumber, agent, now, connect).0)
    ensures SharedError(HangupBrowser(a).0)
    ensures SharedError(OnCallDisconnect(a))
    ensures SharedError(OnRegistered(a))
    ensures SharedError(OnDeviceError(a, message))
  {
  }

  /** A failed browser call overwrites whatever error the server call was showing. */
  lemma BrowserErrorReplacesCallError(a: App, ledger: seq<Entry>, fromNumber: string, agent: string,
                                      now: Instant, connect: D.Outcome)
    requires a.panel.device.None?
    ensures CallFromBrowser(a, ledger, fromNumber, agent, now, connect).0.session.error
         == Some(BP.NotReadyText(Legacy))
  {
  }
}

=== FILE: require_auth.dfy ===
/**
 * The route guard of src/components/RequireAuth.tsx as a pure decision: from
 * the auth state, the route's verification requirement, the current path and
 * the `from` path carried in the location state, it renders nothing, redirects
 * (with the `from` path it hands on), or renders the protected outlet.
 */
module RequireAuth {
  import opened Wrappers
  import opened Strings

  datatype User = User(emailVerified: bool)

  datatype Guard = Blank | Redirect(to: string, from: Option<string>) | Outlet

  const VerifyPath := "/verify-email"
  const DefaultPath := "/make-call"

  /**
   * `fromPath`: the carried `from` path, else the current path (with the
   * verification page mapped to the default page), else the default page.
   */
  function FromPath(fromState: Option<string>, pathname: string): (r: string)
    ensures r != ""
    ensures fromState.GetOr("") != "" ==> r == fromState.value
    ensures fromState.GetOr("") == "" ==> r != VerifyPath
    ensures fromState.GetOr("") == "" && pathname != VerifyPath && pathname != "" ==> r == pathname
    ensures fromState.GetOr("") == "" && (pathname == VerifyPath || pathname == "") ==> r == DefaultPath
  {
    Or(fromState.GetOr(""), Or(if pathname == VerifyPath then DefaultPath else pathname, DefaultPath))
  }

  function Decide(loading: bool, user: Option<User>, requireVerified: bool,
                  pathname: string, fromState: Option<string>): (g: Guard)
    ensures loading ==> g == Blank
    ensures !loading && user.None? ==> g == Redirect("/login", Some(pathname))
    ensures !loading && user.Some? && requireVerified && !user.value.emailVerified && pathname != VerifyPath ==>
      g == Redirect(VerifyPath, Some(FromPath(fromState, pathname)))
    ensures !loading && user.Some? && user.value.emailVerified && pathname == VerifyPath ==>
      g == Redirect(FromPath(fromState, pathname), None)
    ensures g == Outlet <==>
      && !loading && user.Some?
      && (user.value.emailVerified ==> pathname != VerifyPath)
      && (!user.value.emailVerified ==> !requireVerified || pathname == VerifyPath)
  {
    if loading then Blank
    else if user.None? then Redirect("/login", Some(pathname))
    else if requireVerified && !user.value.emailVerified && pathname != VerifyPath then
      Redirect(VerifyPath, Some(FromPath(fromState, pathname)))
    else if user.value.emailVerified && pathname == VerifyPath then
      Redirect(FromPath(fromState, pathname), None)
    else Outlet
  }

  /**
   * Without a carried `from` path the guard never redirects a signed-in user to
   * the page they are on.
   */
  lemma NoSelfRedirect(user: User, requireVerified: bool, pathname: string, fromState: Option<string>)
    requires fromState.GetOr("") == ""
    ensures var g := Decide(false, Some(user), requireVerified, pathname, fromState);
      g.Redirect? ==> g.to != pathname
  {
  }

  /**
   * The verification detour returns where it started: an unverified user sent
   * from a protected page to the verification page is, once verified, sent
   * back to that page.
   */
  lemma VerificationDetourReturns(pathname: string, fromState: Option<string>)
    requires pathname != VerifyPath && pathname != ""
    ensures var first := Decide(false, Some(User(false)), true, pathname, fromState);
      && first.Redirect? && first.to == VerifyPath
      && Decide(false, Some(User(true)), false, VerifyPath, first.from)
         == Redirect(FromPath(fromState, pathname), None)
      && (fromState.GetOr("") == "" ==> FromPath(fromState, pathname) == pathname)
  {
  }
}

=== FILE: server_call.dfy ===
/**
 * The server-placed call of src/pages/ServerCallPage.tsx (repeated in
 * src/App.tsx): `placeCall`, the polling tick armed by `startPolling`,
 * `stopPolling`, `hangup` and `reset`. Each transition takes the backend's reply
 * and the clock as inputs and returns the new session, the new ledger and the
 * request it sent (`None` when it sent none).
 */
module ServerCall {
  import opened Wrappers
  import opened Strings
  import opened Calls
  import Ledger

  /**
   * A live polling timer: the sid its closure polls and the API base it
   * captured when `startPolling` armed it.
   */
  datatype Timer = Timer(sid: string, base: string)

  /**
   * The page's call state: `sid`, `status`, `startTimeRef`, `error`, and the
   * live polling timer (`pollRef`, one slot, so at most one timer exists).
   */
  datatype Session = Session(
    sid: Option<string>,
    status: Option<string>,
    startMs: Option<nat>,
    polling: Option<Timer>,
    error: Option<string>)

  const Idle := Session(None, None, None, None, None)

  /** The reply to `POST /api/call`: created, a non-2xx body, or a thrown error's message. */
  datatype CallReply = Created(sid: string, status: string) | CallRefused(body: ErrorBody) | CallThrew(text: string)

  /** The reply to `GET /api/status`: the body's `status`, a non-2xx code and text, or a thrown error's message. */
  datatype StatusReply = Polled(status: JsValue) | StatusNotOk(code: nat, statusText: string) | StatusThrew(text: string)

  /** The reply to `POST /api/hangup`. */
  datatype HangupReply = HungUp | HangupRefused(body: ErrorBody) | HangupThrew(text: string)

  datatype Step = Step(session: Session, ledger: seq<Entry>, request: Option<Request>)

  function InvalidToText(v: Variant): string {
    match v
    case Pages => "Enter a valid number for Call."
    case Legacy => "Enter a valid E.164 number (e.g. +447700900123)."
  }

  /** What the caught error of a failed call or hang-up shows. */
  function RefusalText(body: ErrorBody): string {
    Shown(CallErrorText(body))
  }

  /** The fields of the entry a successful `placeCall` logs. */
  predicate LoggedEntry(e: Entry, sid: string, to: string, fromNumber: string, agent: string,
                        message: string, status: string, now: Instant) {
    e == Entry(sid, to, fromNumber, Or(agent, "\U{2014}"), message, now.iso, None, status, None)
  }

  /**
   * `placeCall`: validates the API base, then the number, then the caller ID,
   * sending nothing and changing nothing but the error on the first failure; on
   * success logs one entry and arms polling for the new sid.
   */
  function PlaceCall(v: Variant, s: Session, ledger: seq<Entry>, apiBase: string, agent: string,
                     to: string, fromNumber: string, message: string,
                     reply: CallReply, now: Instant): (r: Step)
    ensures apiBase == "" ==>
      r == Step(s.(error := Some("Set API Base URL first.")), ledger, None)
    ensures apiBase != "" && !IsE164(to) ==>
      r == Step(s.(error := Some(InvalidToText(v))), ledger, None)
    ensures apiBase != "" && IsE164(to) && fromNumber == "" ==>
      r == Step(s.(error := Some("Select a From number.")), ledger, None)
    ensures r.request.Some? <==> apiBase != "" && IsE164(to) && fromNumber != ""
    ensures r.request.Some? ==> r.request.value == PostCall(apiBase, to, fromNumber, message)
    ensures r.request.Some? && reply.Created? ==>
      && r.session == Session(Some(reply.sid), Some(reply.status), Some(now.ms), Some(Timer(reply.sid, apiBase)), None)
      && |r.ledger| == Ledger.Min(|ledger| + 1, Ledger.Cap)
      && LoggedEntry(r.ledger[0], reply.sid, to, fromNumber, agent, message, reply.status, now)
      && r.ledger[1..] == ledger[..|r.ledger| - 1]
    ensures r.request.Some? && !reply.Created? ==>
      && r.ledger == ledger
      && r.session == s.(error := Some(if reply.CallRefused? then RefusalText(reply.body) else Shown(reply.text)))
  {
    var cleared := s.(error := None);
    if apiBase == "" then Step(cleared.(error := Some("Set API Base URL first.")), ledger, None)
    else if !IsE164(to) then Step(cleared.(error := Some(InvalidToText(v))), ledger, None)
    else if fromNumber == "" then Step(cleared.(error := Some("Select a From number.")), ledger, None)
    else
      var request := Some(PostCall(apiBase, to, fromNumber, message));
      match reply
      case Created(sid, status) =>
        var entry := Entry(sid, to, fromNumber, Or(agent, "\U{2014}"), message, now.iso, None, status, None);
        // startPolling stops any earlier timer before arming the new one
        Step(Session(Some(sid), Some(status), Some(now.ms), Some(Timer(sid, apiBase)), None),
             Ledger.Add(ledger, entry), request)
      case CallRefused(body) => Step(cleared.(error := Some(RefusalText(body))), ledger, request)
      case CallThrew(text) => Step(cleared.(error := Some(Shown(text))), ledger, request)
  }

  /** The patch a call's end writes: its status, the end time and the duration. */
  function EndPatch(status: string, startMs: Option<nat>, now: Instant): Patch {
    Patch(Put(status), Put(Some(now.iso)), Put(Duration(startMs, now.ms)))
  }

  /**
   * One tick of the 2000 ms polling timer, which asks the API base it was
   * armed with about the sid it was armed with, whatever the base is now. A
   * terminal status ends the call in the ledger and stops polling; a failed
   * poll records a `Status error: ` and stops polling; without a timer nothing
   * ticks.
   */
  function PollTick(s: Session, ledger: seq<Entry>, reply: StatusReply, now: Instant): (r: Step)
    ensures s.polling.None? ==> r == Step(s, ledger, None)
    ensures s.polling.Some? ==> r.request == Some(GetStatus(s.polling.value.base, s.polling.value.sid))
    ensures s.polling.Some? && reply.Polled? ==>
      var st := if Truthy(reply.status) then Text(reply.status) else "";
      && r.session.status == Some(st)
      && r.session.sid == s.sid && r.session.startMs == s.startMs && r.session.error == s.error
      && (IsTerminal(st) ==>
            r.session.polling.None?
            && r.ledger == Ledger.Update(ledger, s.polling.value.sid, EndPatch(st, s.startMs, now)))
      && (!IsTerminal(st) ==> r.session.polling == s.polling && r.ledger == ledger)
    ensures s.polling.Some? && !reply.Polled? ==>
      && r.ledger == ledger
      && r.session.polling.None?
      && r.session.error.Some? && |r.session.error.value| > 14
      && r.session.error.value[..14] == "Status error: "
      && r.session == s.(polling := None, error := r.session.error)
    ensures s.polling.Some? && reply.StatusNotOk? ==>
      r.session.error == Some("Status error: " + NatToString(reply.code) + " " + reply.statusText)
    ensures s.polling.Some? && reply.StatusThrew? ==> r.session.error == Some("Status error: " + Shown(reply.text))
  {
    match s.polling
    case None => Step(s, ledger, None)
    case Some(Timer(id, base)) =>
      var request := Some(GetStatus(base, id));
      match reply
      case Polled(value) =>
        var st := if Truthy(value) then Text(value) else "";
        if IsTerminal(st) then
          Step(s.(status := Some(st), polling := None),
               Ledger.Update(ledger, id, EndPatch(st, s.startMs, now)), request)
        else Step(s.(status := Some(st)), ledger, request)
      case StatusNotOk(code, statusText) =>
        Step(s.(error := Some("Status error: " + NatToString(code) + " " + statusText), polling := None),
             ledger, request)
      case StatusThrew(text) =>
        Step(s.(error := Some("Status error: " + Shown(text)), polling := None), ledger, request)
  }

  /**
   * `hangup`: nothing without a sid; otherwise a successful hang-up marks the
   * call completed, ends its entry and stops polling, and a failed one only
   * records the error.
   */
  function Hangup(s: Session, ledger: seq<Entry>, apiBase: string, reply: HangupReply, now: Instant): (r: Step)
    ensures (s.sid.None? || s.sid.value == "") ==> r == Step(s, ledger, None)
    ensures s.sid.Some? && s.sid.value != "" ==> r.request == Some(PostHangup(apiBase, s.sid.value))
    ensures s.sid.Some? && s.sid.value != "" && reply.HungUp? ==>
      && r.session == s.(status := Some("completed"), polling := None, error := None)
      && r.ledger == Ledger.Update(ledger, s.sid.value, EndPatch("completed", s.startMs, now))
    ensures s.sid.Some? && s.sid.value != "" && !reply.HungUp? ==>
      && r.ledger == ledger
      && r.session == s.(error := Some(if reply.HangupRefused? then RefusalText(reply.body) else Shown(reply.text)))
  {
    match s.sid
    case None => Step(s, ledger, None)
    case Some(sid) =>
      if sid == "" then Step(s, ledger, None)
      else
        var request := Some(PostHangup(apiBase, sid));
        match reply
        case HungUp =>
          Step(s.(status := Some("completed"), polling := None, error := None),
               Ledger.Update(ledger, sid, EndPatch("completed", s.startMs, now)), request)
        case HangupRefused(body) => Step(s.(error := Some(RefusalText(body))), ledger, request)
        case HangupThrew(text) => Step(s.(error := Some(Shown(text))), ledger, request)
  }

  /** `reset`: stop polling and forget the call and the error; the ledger is not touched. */
  function Reset(s: Session): (r: Session)
    ensures r.sid.None? && r.status.None? && r.startMs.None? && r.polling.None? && r.error.None?
  {
    Idle
  }

  /** Resetting twice is resetting once. */
  lemma ResetIdempotent(s: Session)
    ensures Reset(Reset(s)) == Reset(s)
  {
  }

  /** A live timer always polls the current call, whose start time is known. */
  predicate Consistent(s: Session) {
    s.polling.Some? ==> s.sid == Some(s.polling.value.sid) && s.startMs.Some?
  }

  /** Every transition keeps a live timer on the current call. */
  lemma TransitionsKeepConsistent(v: Variant, s: Session, ledger: seq<Entry>, apiBase: string, agent: string,
                                  to: string, fromNumber: string, message: string,
                                  call: CallReply, status: StatusReply, hangup: HangupReply, now: Instant)
    requires Consistent(s)
    ensures Consistent(PlaceCall(v, s, ledger, apiBase, agent, to, fromNumber, message, call, now).session)
    ensures Consistent(PollTick(s, ledger, status, now).session)
    ensures Consistent(Hangup(s, ledger, apiBase, hangup, now).session)
    ensures Consistent(Reset(s))
  {
  }

  /** A rejected `placeCall` does not depend on the backend at all: no request was made. */
  lemma RejectedPlaceCallIgnoresBackend(v: Variant, s: Session, ledger: seq<Entry>, apiBase: string, agent: string,
                                        to: string, fromNumber: string, message: string,
                                        reply1: CallReply, reply2: CallReply, now1: Instant, now2: Instant)
    requires apiBase == "" || !IsE164(to) || fromNumber == ""
    ensures PlaceCall(v, s, ledger, apiBase, agent, to, fromNumber, message, reply1, now1)
         == PlaceCall(v, s, ledger, apiBase, agent, to, fromNumber, message, reply2, now2)
  {
  }

  /**
   * A terminal tick patches the ledger once: polling stops, so every later tick
   * changes nothing.
   */
  lemma TerminalTickIsLast(s: Session, ledger: seq<Entry>, value: JsValue, now: Instant,
                           later: StatusReply, laterNow: Instant)
    requires s.polling.Some?
    requires Truthy(value) && IsTerminal(Text(value))
    ensures var r := PollTick(s, ledger, Polled(value), now);
      PollTick(r.session, r.ledger, later, laterNow) == Step(r.session, r.ledger, None)
  {
  }

  /** A tick touches only the polled call's entries: the ledger keeps its length and every other row. */
  lemma PollTickTouchesOnlyItsCall(s: Session, ledger: seq<Entry>, reply: StatusReply, now: Instant)
    requires s.polling.Some?
    ensures var r := PollTick(s, ledger, reply, now);
      |r.ledger| == |ledger|
      && forall i | 0 <= i < |ledger| && ledger[i].sid != s.polling.value.sid :: r.ledger[i] == ledger[i]
  {
  }

  /**
   * A call to +447700900123 created as `queued` is logged without an end; the
   * next tick asks the base the call was placed through, and a `completed`
   * reply ends the entry with its duration and stops polling.
   */
  lemma QueuedThenCompleted(ledger: seq<Entry>, apiBase: string, agent: string, message: string,
                            start: Instant, end: Instant)
    requires apiBase != "" && start.ms > 0 && end.ms >= start.ms
    ensures
      var placed := PlaceCall(Pages, Idle, ledger, apiBase, agent, "+447700900123", "+442012345678",
                              message, Created("CA123", "queued"), start);
      var polled := PollTick(placed.session, placed.ledger, Polled(Str("completed")), end);
      && placed.ledger[0].status == "queued" && placed.ledger[0].endedAt.None?
      && placed.session.polling == Some(Timer("CA123", apiBase))
      && polled.request == Some(GetStatus(apiBase, "CA123"))
      && polled.session.polling.None?
      && polled.ledger[0].sid == "CA123"
      && polled.ledger[0].status == "completed"
      && polled.ledger[0].endedAt == Some(end.iso)
      && polled.ledger[0].durationSec == Duration(Some(start.ms), end.ms)
      && polled.ledger[0].durationSec.Some?
  {
    assert IsE164("+447700900123");
    var placed := PlaceCall(Pages, Idle, ledger, apiBase, agent, "+447700900123", "+442012345678",
                            message, Created("CA123", "queued"), start);
    assert placed.ledger[0].sid == "CA123";
    assert IsTerminal("completed");
  }

  /** A number without its `+` sends nothing and leaves the ledger alone. */
  lemma MissingPlusRejected(s: Session, ledger: seq<Entry>, apiBase: string, agent: string,
                            fromNumber: string, message: string, reply: CallReply, now: Instant)
    requires apiBase != ""
    ensures var r := PlaceCall(Pages, s, ledger, apiBase, agent, "447700900123", fromNumber, message, reply, now);
      r.request.None? && r.ledger == ledger && r.session.error == Some("Enter a valid number for Call.")
  {
  }
}

=== FILE: settings.dfy ===
/**
 * Settings of the dialer: the caller pool parsed from its comma-separated text,
 * the read-only API base of the routed pages, the editable API base of the
 * legacy `App`, how each setting is hydrated from storage and build-time
 * configuration, and the default caller ID.
 */
module Settings {
  import opened Wrappers
  import opened Strings

  /**
   * The pieces stripped of characters of `cs` at both ends, empty ones dropped,
   * in order; with `cs` the JavaScript white space this is
   * `.map(s => s.trim()).filter(Boolean)`.
   */
  function Keep(pieces: seq<string>, cs: set<char>): (r: seq<string>)
    ensures forall i | 0 <= i < |r| :: r[i] != "" && TrimmedBy(r[i], cs)
    decreases |pieces|
  {
    if |pieces| == 0 then []
    else
      var t := StripBoth(pieces[0], cs);
      (if t == "" then [] else [t]) + Keep(pieces[1..], cs)
  }

  /** Trimming never introduces a comma. */
  lemma {:induction false} KeepCommaFree(pieces: seq<string>, cs: set<char>)
    requires forall i | 0 <= i < |pieces| :: ',' !in pieces[i]
    ensures forall i | 0 <= i < |Keep(pieces, cs)| :: ',' !in Keep(pieces, cs)[i]
    decreases |pieces|
  {
    if |pieces| > 0 {
      KeepCommaFree(pieces[1..], cs);
    }
  }

  lemma {:induction false} KeepConcat(a: seq<string>, b: seq<string>, cs: set<char>)
    ensures Keep(a + b, cs) == Keep(a, cs) + Keep(b, cs)
    decreases |a|
  {
    if |a| == 0 {
      assert a + b == b;
    } else {
      var head, rest, tail := Keep([a[0]], cs), Keep(a[1..], cs), Keep(b, cs);
      ConcatHeadTail(a, b);
      KeepHead(a + b, cs);
      KeepHead(a, cs);
      KeepConcat(a[1..], b, cs);
      AppendAssoc(head, rest, tail);
    }
  }

  lemma AppendAssoc<T>(x: seq<T>, y: seq<T>, z: seq<T>)
    ensures x + (y + z) == (x + y) + z
  {
  }

  lemma ConcatHeadTail<T>(a: seq<T>, b: seq<T>)
    requires |a| > 0
    ensures (a + b)[0] == a[0] && (a + b)[1..] == a[1..] + b
  {
  }

  /** The first piece is handled on its own. */
  lemma KeepHead(pieces: seq<string>, cs: set<char>)
    requires |pieces| > 0
    ensures Keep(pieces, cs) == Keep([pieces[0]], cs) + Keep(pieces[1..], cs)
  {
    KeepOne(pieces[0], cs);
  }

  /** A single piece is kept, stripped, unless it strips to nothing. */
  lemma KeepOne(piece: string, cs: set<char>)
    ensures var t := StripBoth(piece, cs); Keep([piece], cs) == if t == "" then [] else [t]
  {
    assert [piece][1..] == [];
    assert Keep([piece], cs) == (if StripBoth(piece, cs) == "" then [] else [StripBoth(piece, cs)]) + Keep([], cs);
  }

  lemma KeepEmptyPiece(cs: set<char>)
    ensures Keep([""], cs) == []
  {
    assert Keep([""], cs) == [] + Keep([], cs);
  }

  /** Pieces that are already non-empty and trimmed are all kept as they are. */
  lemma {:induction false} KeepTrimmed(pieces: seq<string>, cs: set<char>)
    requires forall i | 0 <= i < |pieces| :: pieces[i] != "" && TrimmedBy(pieces[i], cs)
    ensures Keep(pieces, cs) == pieces
    decreases |pieces|
  {
    if |pieces| > 0 {
      KeepTrimmed(pieces[1..], cs);
      assert pieces == [pieces[0]] + pieces[1..];
    }
  }

  /** `fromPoolRaw.split(",").map(s => s.trim()).filter(Boolean)`. */
  function ParsePool(raw: string): (r: seq<string>)
    ensures forall i | 0 <= i < |r| :: r[i] != "" && ',' !in r[i] && IsTrimmed(r[i])
    ensures ',' !in raw ==> r == (if Trim(raw) == "" then [] else [Trim(raw)])
  {
    KeepCommaFree(Split(raw, ','), JsSpace);
    if ',' !in raw then
      SplitNoSeparator(raw, ',');
      KeepOne(raw, JsSpace);
      Keep(Split(raw, ','), JsSpace)
    else
      Keep(Split(raw, ','), JsSpace)
  }

  /** The pool of a text with a comma in it is the pool of the left part followed by that of the right part. */
  lemma ParsePoolConcat(a: string, b: string)
    ensures ParsePool(a + "," + b) == ParsePool(a) + ParsePool(b)
  {
    SplitConcat(a, b, ',');
    KeepConcat(Split(a, ','), Split(b, ','), JsSpace);
  }

  /** Any list of caller numbers, joined with commas, parses back to itself. */
  lemma ParsePoolJoin(numbers: seq<string>)
    requires forall i | 0 <= i < |numbers| :: numbers[i] != "" && ',' !in numbers[i] && IsTrimmed(numbers[i])
    ensures ParsePool(Join(numbers, ",")) == numbers
  {
    if |numbers| == 0 {
      assert Split("", ',') == [""];
      KeepEmptyPiece(JsSpace);
    } else {
      SplitJoin(numbers, ',');
      KeepTrimmed(numbers, JsSpace);
    }
  }

  /** The routed pages' API base: `(VITE_API_BASE ?? "").replace(/\/+$/, "")`. */
  function ApiBase(raw: Option<string>): (r: string)
    ensures |r| <= |raw.GetOr("")| && r == raw.GetOr("")[..|r|]
    ensures |r| == 0 || r[|r| - 1] != '/'
    ensures forall i | |r| <= i < |raw.GetOr("")| :: raw.GetOr("")[i] == '/'
  {
    StripEnd(raw.GetOr(""), {'/'})
  }

  /** Stripping the API base again changes nothing. */
  lemma ApiBaseIdempotent(raw: Option<string>)
    ensures ApiBase(Some(ApiBase(raw))) == ApiBase(raw)
  {
    StripEndIdempotent(raw.GetOr(""), {'/'});
  }

  /**
   * `localStorage.getItem(key) || configured || ""`: a setting's start value is
   * the stored text if non-empty, else the configured one, else empty. The caller
   * pool and the legacy API base are hydrated this way; the agent has no
   * configured value.
   */
  function Hydrate(stored: Option<string>, configured: Option<string>): (r: string)
    ensures stored.Some? && stored.value != "" ==> r == stored.value
    ensures (stored.None? || stored.value == "") ==> r == configured.GetOr("")
  {
    Or(stored.GetOr(""), Or(configured.GetOr(""), ""))
  }

  /** The legacy `App` writes its API base back to storage only when it is non-empty. */
  function PersistApiBase(stored: Option<string>, apiBase: string): (r: Option<string>)
    ensures apiBase != "" ==> r == Some(apiBase)
    ensures apiBase == "" ==> r == stored
  {
    if apiBase != "" then Some(apiBase) else stored
  }

  /** A non-empty API base survives a reload; an empty one leaves the previous start value. */
  lemma ApiBaseSurvivesReload(stored: Option<string>, configured: Option<string>, apiBase: string)
    ensures apiBase != "" ==> Hydrate(PersistApiBase(stored, apiBase), configured) == apiBase
    ensures apiBase == "" ==>
      Hydrate(PersistApiBase(stored, apiBase), configured) == Hydrate(stored, configured)
  {
  }

  /** `fromPool[0] || ""`. */
  function First(pool: seq<string>): (r: string)
    ensures |pool| > 0 ==> r == pool[0]
    ensures |pool| == 0 ==> r == ""
  {
    if |pool| > 0 then pool[0] else ""
  }

  /**
   * The caller-ID selection after the `if (fromPool.length && !fromNumber)`
   * effect: an empty selection takes the first pool number.
   */
  function DefaultFrom(pool: seq<string>, fromNumber: string): (r: string)
    ensures fromNumber != "" ==> r == fromNumber
    ensures fromNumber == "" ==> r == First(pool)
  {
    if |pool| > 0 && fromNumber == "" then pool[0] else fromNumber
  }

  /** Re-running the effect changes nothing, and a parsed non-empty pool leaves no selection empty. */
  lemma DefaultFromSettles(raw: string, fromNumber: string)
    ensures DefaultFrom(ParsePool(raw), DefaultFrom(ParsePool(raw), fromNumber)) == DefaultFrom(ParsePool(raw), fromNumber)
    ensures |ParsePool(raw)| > 0 ==> DefaultFrom(ParsePool(raw), fromNumber) != ""
  {
  }
}

=== FILE: strings.dfy ===
/**
 * String helpers that the dialer front-end takes from JavaScript: `||` on strings,
 * `trim`, the `/\/+$/` strip, `split`/`join` on one separator, and decimal rendering
 * of non-negative integers.
 */
module Strings {

  predicate IsDigit(c: char) {
    '0' <= c <= '9'
  }

  /** JavaScript `a || b` on two strings: the empty string is the only falsy string. */
  function Or(a: string, b: string): (r: string)
    ensures r == a || r == b
    ensures r != "" <==> a != "" || b != ""
    ensures a != "" ==> r == a
  {
    if a != "" then a else b
  }

  /** The characters `String.prototype.trim` removes (ECMAScript WhiteSpace and LineTerminator). */
  const JsSpace: set<char> := {
    '\t', '\n', '\U{B}', '\U{C}', '\r', ' ', '\U{A0}', '\U{1680}',
    '\U{2000}', '\U{2001}', '\U{2002}', '\U{2003}', '\U{2004}', '\U{2005}',
    '\U{2006}', '\U{2007}', '\U{2008}', '\U{2009}', '\U{200A}',
    '\U{2028}', '\U{2029}', '\U{202F}', '\U{205F}', '\U{3000}', '\U{FEFF}'
  }

  /** Removes the longest suffix made only of characters of `cs`. */
  function StripEnd(s: string, cs: set<char>): (r: string)
    ensures |r| <= |s| && r == s[..|r|]
    ensures |r| == 0 || r[|r| - 1] !in cs
    ensures forall i | |r| <= i < |s| :: s[i] in cs
    decreases |s|
  {
    if |s| > 0 && s[|s| - 1] in cs then StripEnd(s[..|s| - 1], cs) else s
  }

  /** Removes the longest prefix made only of characters of `cs`. */
  function StripStart(s: string, cs: set<char>): (r: string)
    ensures |r| <= |s| && r == s[|s| - |r|..]
    ensures |r| == 0 || r[0] !in cs
    ensures forall i | 0 <= i < |s| - |r| :: s[i] in cs
    decreases |s|
  {
    if |s| > 0 && s[0] in cs then StripStart(s[1..], cs) else s
  }

  /** Stripping a suffix is idempotent. */
  lemma StripEndIdempotent(s: string, cs: set<char>)
    ensures StripEnd(StripEnd(s, cs), cs) == StripEnd(s, cs)
  {
  }

  /** `t` neither starts nor ends with a character of `cs`. */
  predicate TrimmedBy(t: string, cs: set<char>) {
    |t| == 0 || (t[0] !in cs && t[|t| - 1] !in cs)
  }

  /** `r` is `s` with a prefix and a suffix made only of characters of `cs` cut off. */
  predicate CutBy(r: string, s: string, cs: set<char>) {
    exists i: nat, j: nat | i <= j <= |s| :: CutAt(r, s, cs, i, j)
  }

  /** `r` is `s[i..j]`, and everything of `s` before `i` and from `j` on is in `cs`. */
  predicate CutAt(r: string, s: string, cs: set<char>, i: nat, j: nat) {
    i <= j <= |s| && r == s[i..j] && AllIn(s[..i], cs) && AllIn(s[j..], cs)
  }

  /** Every character of `t` is in `cs`. */
  predicate AllIn(t: string, cs: set<char>) {
    forall k | 0 <= k < |t| :: t[k] in cs
  }

  /** Strips characters of `cs` from both ends. */
  function StripBoth(s: string, cs: set<char>): (r: string)
    ensures TrimmedBy(r, cs)
    ensures |r| <= |s|
    ensures forall c | c in r :: c in s
    ensures TrimmedBy(s, cs) ==> r == s
  {
    var t := StripStart(s, cs);
    var r := StripEnd(t, cs);
    assert |r| > 0 ==> r[0] == t[0];
    SliceChars(t, 0, |r|);
    SliceChars(s, |s| - |t|, |s|);
    r
  }

  /** Stripping both ends cuts `s` at its first and after its last character outside `cs`. */
  lemma StripBothCut(s: string, cs: set<char>)
    ensures CutBy(StripBoth(s, cs), s, cs)
  {
    var t := StripStart(s, cs);
    var r := StripEnd(t, cs);
    var i, j := |s| - |t|, |s| - |t| + |r|;
    assert r == s[i..j];
    assert AllIn(s[..i], cs) by {
      forall k | 0 <= k < i ensures s[..i][k] in cs {
        assert s[..i][k] == s[k];
      }
    }
    assert AllIn(s[j..], cs) by {
      forall k | 0 <= k < |s| - j ensures s[j..][k] in cs {
        assert s[j..][k] == t[|r| + k];
      }
    }
    assert CutAt(r, s, cs, i, j);
  }

  /** At most one cut of `s` is trimmed, so `StripBoth`'s contract determines its result. */
  lemma TrimmedCutUnique(r1: string, r2: string, s: string, cs: set<char>)
    requires TrimmedBy(r1, cs) && CutBy(r1, s, cs)
    requires TrimmedBy(r2, cs) && CutBy(r2, s, cs)
    ensures r1 == r2
  {
    var i1: nat, j1: nat :| i1 <= j1 <= |s| && CutAt(r1, s, cs, i1, j1);
    var i2: nat, j2: nat :| i2 <= j2 <= |s| && CutAt(r2, s, cs, i2, j2);
    if i1 < j1 {
      assert s[i1] == r1[0] && s[j1 - 1] == r1[|r1| - 1];
    }
    if i2 < j2 {
      assert s[i2] == r2[0] && s[j2 - 1] == r2[|r2| - 1];
    }
    AllInSlices(s, cs, i1, j1);
    AllInSlices(s, cs, i2, j2);
    CutBoundsUnique(s, cs, i1, j1, i2, j2);
  }

  /** `AllIn` on the two outer slices, read back as indices of `s`. */
  lemma AllInSlices(s: string, cs: set<char>, i: nat, j: nat)
    requires i <= j <= |s| && AllIn(s[..i], cs) && AllIn(s[j..], cs)
    ensures forall k | 0 <= k < i :: s[k] in cs
    ensures forall k | j <= k < |s| :: s[k] in cs
  {
    forall k | 0 <= k < i ensures s[k] in cs {
      assert s[..i][k] == s[k];
    }
    forall k | j <= k < |s| ensures s[k] in cs {
      assert s[j..][k - j] == s[k];
    }
  }

  /** The bounds of a trimmed cut, in index form: both empty, or the same cut. */
  lemma CutBoundsUnique(s: string, cs: set<char>, i1: nat, j1: nat, i2: nat, j2: nat)
    requires i1 <= j1 <= |s| && i2 <= j2 <= |s|
    requires forall k | 0 <= k < i1 :: s[k] in cs
    requires forall k | j1 <= k < |s| :: s[k] in cs
    requires forall k | 0 <= k < i2 :: s[k] in cs
    requires forall k | j2 <= k < |s| :: s[k] in cs
    requires i1 < j1 ==> s[i1] !in cs && s[j1 - 1] !in cs
    requires i2 < j2 ==> s[i2] !in cs && s[j2 - 1] !in cs
    ensures (i1 == j1 && i2 == j2) || (i1 == i2 && j1 == j2)
  {
  }

  /** Every character of a slice occurs in the whole string. */
  lemma SliceChars(s: string, i: nat, j: nat)
    requires i <= j <= |s|
    ensures forall c | c in s[i..j] :: c in s
  {
    forall c | c in s[i..j] ensures c in s {
      var k :| 0 <= k < j - i && s[i..j][k] == c;
      assert s[i + k] == c;
    }
  }

  predicate IsTrimmed(t: string) {
    TrimmedBy(t, JsSpace)
  }

  /** JavaScript `s.trim()`. */
  function Trim(s: string): (r: string)
    ensures IsTrimmed(r)
    ensures CutBy(r, s, JsSpace)
    ensures |r| <= |s|
    ensures forall c | c in r :: c in s
    ensures IsTrimmed(s) ==> r == s
  {
    StripBothCut(s, JsSpace);
    StripBoth(s, JsSpace)
  }

  /** Every occurrence of `a` replaced by `b`, everything else kept in place. */
  function ReplaceChar(s: string, a: char, b: char): (r: string)
    ensures |r| == |s|
    ensures forall i | 0 <= i < |s| :: r[i] == (if s[i] == a then b else s[i])
    ensures a != b ==> a !in r
    decreases |s|
  {
    if |s| == 0 then ""
    else [if s[0] == a then b else s[0]] + ReplaceChar(s[1..], a, b)
  }

  /** JavaScript `parts.join(sep)`. */
  function Join(parts: seq<string>, sep: string): string
  {
    if |parts| == 0 then ""
    else if |parts| == 1 then parts[0]
    else parts[0] + sep + Join(parts[1..], sep)
  }

  /**
   * JavaScript `s.split(c)` for a one-character separator: the pieces between
   * separators, in order, one more piece than there are separators.
   */
  function Split(s: string, sep: char): (r: seq<string>)
    ensures |r| > 0
    ensures forall i | 0 <= i < |r| :: sep !in r[i]
    ensures Join(r, [sep]) == s
    decreases |s|
  {
    if |s| == 0 then [""]
    else
      var rest := Split(s[1..], sep);
      if s[0] == sep then
        assert ([""] + rest)[1..] == rest;
        [""] + rest
      else
        var r := [[s[0]] + rest[0]] + rest[1..];
        assert |rest| > 1 ==> r[1..] == rest[1..] && Join(rest, [sep]) == rest[0] + [sep] + Join(rest[1..], [sep]);
        assert s == [s[0]] + s[1..];
        r
  }

  /** Splitting at a separator splits the two sides independently. */
  lemma {:induction false} SplitConcat(a: string, b: string, sep: char)
    ensures Split(a + [sep] + b, sep) == Split(a, sep) + Split(b, sep)
    decreases |a|
  {
    var s := a + [sep] + b;
    if |a| == 0 {
      assert s == [sep] + b;
      assert s[1..] == b;
    } else {
      assert s[0] == a[0];
      assert s[1..] == a[1..] + [sep] + b;
      SplitConcat(a[1..], b, sep);
    }
  }

  /** A string without the separator splits into itself. */
  lemma {:induction false} SplitNoSeparator(s: string, sep: char)
    requires sep !in s
    ensures Split(s, sep) == [s]
    decreases |s|
  {
    if |s| > 0 {
      SplitNoSeparator(s[1..], sep);
      assert s == [s[0]] + s[1..];
    }
  }

  /** Split undoes Join when no piece holds the separator. */
  lemma {:induction false} SplitJoin(parts: seq<string>, sep: char)
    requires |parts| > 0
    requires forall i | 0 <= i < |parts| :: sep !in parts[i]
    ensures Split(Join(parts, [sep]), sep) == parts
    decreases |parts|
  {
    SplitNoSeparator(parts[0], sep);
    if |parts| > 1 {
      SplitConcat(parts[0], Join(parts[1..], [sep]), sep);
      SplitJoin(parts[1..], sep);
      assert parts == [parts[0]] + parts[1..];
    }
  }

  function DigitChar(d: nat): (c: char)
    requires d < 10
    ensures IsDigit(c)
  {
    ['0', '1', '2', '3', '4', '5', '6', '7', '8', '9'][d]
  }

  function DigitValue(c: char): (d: nat)
    requires IsDigit(c)
    ensures d < 10 && DigitChar(d) == c
  {
    (c as int - '0' as int) as nat
  }

  predicate AllDigits(s: string) {
    forall i | 0 <= i < |s| :: IsDigit(s[i])
  }

  /** JavaScript `String(n)` for a non-negative integer: its decimal digits. */
  function NatToString(n: nat): (r: string)
    ensures |r| > 0 && AllDigits(r)
    decreases n
  {
    if n < 10 then [DigitChar(n)] else NatToString(n / 10) + [DigitChar(n % 10)]
  }

  /** The value of a string of decimal digits. */
  function ParseNat(s: string): nat
    requires AllDigits(s)
    decreases |s|
  {
    if |s| == 0 then 0 else ParseNat(s[..|s| - 1]) * 10 + DigitValue(s[|s| - 1])
  }

  /** Reading back the decimal rendering recovers the number. */
  lemma {:induction false} NatToStringRoundTrip(n: nat)
    ensures ParseNat(NatToString(n)) == n
    decreases n
  {
    if n >= 10 {
      var s := NatToString(n);
      NatToStringRoundTrip(n / 10);
      assert s[..|s| - 1] == NatToString(n / 10);
      assert DigitValue(s[|s| - 1]) == n % 10 by {
        assert DigitChar(DigitValue(s[|s| - 1])) == DigitChar(n % 10);
      }
    } else {
      assert DigitChar(DigitValue(NatToString(n)[0])) == DigitChar(n);
    }
  }

  /** Distinct numbers render differently. */
  lemma NatToStringInjective(a: nat, b: nat)
    requires NatToString(a) == NatToString(b)
    ensures a == b
  {
    NatToStringRoundTrip(a);
    NatToStringRoundTrip(b);
  }
}

=== FILE: web_call.dfy ===
/**
 * src/pages/WebCallPage.tsx: the browser-call page built on the dialer state.
 * `handleCall` validates the number, starts the call and logs a `client-<ms>`
 * entry; the call button resolves its caller ID from the pool; a query string
 * can trigger the call on its own.
 */
module WebCall {
  import opened Wrappers
  import opened Strings
  import opened Calls
  import Ledger
  import Settings
  import D = Dialer

  datatype Page = Page(browserTo: string, browserFrom: string, sid: Option<string>, status: Option<string>, error: Option<string>)

  const InvalidText := "Enter a valid E.164 number."
  const BrowserMessage := "(Browser call)"

  datatype Step = Step(page: Page, dialer: D.Dialer, ledger: seq<Entry>)

  /** The entry a browser call logs: a local sid from the start instant, in progress. */
  function BrowserEntry(to: string, fromNumber: string, agent: string, now: Instant): Entry {
    Entry(ClientSid(now.ms), to, fromNumber, Or(agent, "\U{2014}"), BrowserMessage, now.iso, None, "in-progress", None)
  }

  /**
   * `handleCall(to, from)`: an invalid number is refused before the dialer is
   * asked; a failed start only records the error; a started call sets the page
   * to in progress and logs one entry.
   */
  function HandleCall(p: Page, d: D.Dialer, ledger: seq<Entry>, agent: string,
                      to: string, fromNumber: string, now: Instant, connect: D.Outcome): (r: Step)
    ensures !IsE164(to) ==> r == Step(p.(error := Some(InvalidText)), d, ledger)
    ensures IsE164(to) && (d.device.None? || !d.ready) ==>
      r == Step(p.(error := Some(D.NotReadyText)), d, ledger)
    ensures IsE164(to) && d.device.Some? && d.ready && connect.Throws? ==>
      r == Step(p.(error := Some(Shown(connect.text))), d, ledger)
    ensures r.ledger != ledger ==> IsE164(to) && d.device.Some? && d.ready && connect.Resolves?
    ensures IsE164(to) && d.device.Some? && d.ready && connect.Resolves? ==>
      && r.page == p.(sid := Some(ClientSid(now.ms)), status := Some("in-progress"), error := None)
      && r.dialer == d.(active := Some(D.Call(to, fromNumber)), muted := false)
      && |r.ledger| == Ledger.Min(|ledger| + 1, Ledger.Cap)
      && r.ledger[0] == BrowserEntry(to, fromNumber, agent, now)
      && r.ledger[0].sid == r.page.sid.value
      && r.ledger[1..] == ledger[..|r.ledger| - 1]
  {
    var cleared := p.(error := None);
    if !IsE164(to) then Step(cleared.(error := Some(InvalidText)), d, ledger)
    else
      var (d', started) := D.StartCall(d, to, fromNumber, connect);
      match started
      case Err(text) => Step(cleared.(error := Some(Shown(text))), d', ledger)
      case Ok(_) =>
        Step(cleared.(status := Some("in-progress"), sid := Some(ClientSid(now.ms))),
             d', Ledger.Add(ledger, BrowserEntry(to, fromNumber, agent, now)))
  }

  /** The call's `disconnect`: the page shows completed; the ledger entry is not patched. */
  function OnDisconnect(p: Page, d: D.Dialer): (r: (Page, D.Dialer))
    ensures r.0 == p.(status := Some("completed"))
    ensures r.1.active.None? && !r.1.muted
    ensures r.1 == d.(active := None, muted := false)
  {
    (p.(status := Some("completed")), D.OnDisconnect(d))
  }

  /** The caller ID the call button passes: `browserFrom || fromPool[0] || ""`. */
  function CallFrom(browserFrom: string, pool: seq<string>): (r: string)
    ensures browserFrom != "" ==> r == browserFrom
    ensures browserFrom == "" ==> r == Settings.First(pool)
  {
    Or(browserFrom, Settings.First(pool))
  }

  /**
   * The call button is enabled only when the device is ready and no call is
   * active. A helper: its meaning is stated by `Autocall` and `EnabledCallIsLogged`.
   */
  predicate CallEnabled(d: D.Dialer) {
    d.ready && d.active.None?
  }

  /**
   * Form decoding of a raw query value as far as this page meets it: a `+`
   * stands for a space.
   */
  function FormDecode(raw: string): (r: string)
    ensures |r| == |raw| && '+' !in r
    ensures forall i | 0 <= i < |raw| && raw[i] != '+' :: r[i] == raw[i]
  {
    ReplaceChar(raw, '+', ' ')
  }

  /**
   * `url.searchParams.get(key)` over the raw `(key, value)` pairs of the query
   * string: the decoded value of the first pair with the key.
   */
  function Param(query: seq<(string, string)>, key: string): (r: Option<string>)
    ensures r.Some? ==> exists i | 0 <= i < |query| ::
      query[i].0 == key && r.value == FormDecode(query[i].1) && forall j | 0 <= j < i :: query[j].0 != key
    ensures r.None? ==> forall i | 0 <= i < |query| :: query[i].0 != key
    decreases |query|
  {
    if |query| == 0 then None
    else if query[0].0 == key then Some(FormDecode(query[0].1))
    else
      var r := Param(query[1..], key);
      assert r.Some? ==> exists i | 0 <= i < |query| ::
        query[i].0 == key && r.value == FormDecode(query[i].1) && forall j | 0 <= j < i :: query[j].0 != key
      by {
        if r.Some? {
          var i :| 0 <= i < |query[1..]| && query[1..][i].0 == key && r.value == FormDecode(query[1..][i].1)
            && forall j | 0 <= j < i :: query[1..][j].0 != key;
          assert query[i + 1].0 == key && r.value == FormDecode(query[i + 1].1);
          forall j | 0 <= j < i + 1 ensures query[j].0 != key {
            if j > 0 { assert query[j] == query[1..][j - 1]; }
          }
        }
      }
      r
  }

  /**
   * The auto-call effect: with `autocall=1`, a ready device and no active call,
   * calls the `to` parameter from the `from` parameter or the first pool number
   * when both are non-empty. Returns the (to, from) it calls with.
   */
  function Autocall(query: seq<(string, string)>, d: D.Dialer, pool: seq<string>): (r: Option<(string, string)>)
    ensures r.Some? <==>
      && Param(query, "autocall") == Some("1") && CallEnabled(d)
      && Param(query, "to").GetOr("") != ""
      && Or(Param(query, "from").GetOr(""), Settings.First(pool)) != ""
    ensures r.Some? ==> r.value.0 == Param(query, "to").value
    ensures r.Some? && Param(query, "from").GetOr("") == "" ==> r.value.1 == pool[0]
    ensures r.Some? && Param(query, "from").GetOr("") != "" ==> r.value.1 == Param(query, "from").value
  {
    if Param(query, "autocall") == Some("1") && d.ready && d.active.None? then
      var to := Param(query, "to").GetOr("");
      var f := Or(Param(query, "from").GetOr(""), Settings.First(pool));
      if to != "" && f != "" then Some((to, f)) else None
    else None
  }

  /**
   * The auto-call effect run on the page: the chosen numbers are written into
   * the call form, then `handleCall` calls with them.
   */
  function RunAutocall(query: seq<(string, string)>, p: Page, d: D.Dialer, ledger: seq<Entry>, pool: seq<string>,
                       agent: string, now: Instant, connect: D.Outcome): (r: Step)
    ensures Autocall(query, d, pool).None? ==> r == Step(p, d, ledger)
    ensures Autocall(query, d, pool).Some? ==>
      var (to, f) := Autocall(query, d, pool).value;
      && r.page.browserTo == to && r.page.browserFrom == f
      && r.page.(browserTo := p.browserTo, browserFrom := p.browserFrom)
         == HandleCall(p, d, ledger, agent, to, f, now, connect).page
      && r.dialer == HandleCall(p, d, ledger, agent, to, f, now, connect).dialer
      && r.ledger == HandleCall(p, d, ledger, agent, to, f, now, connect).ledger
  {
    match Autocall(query, d, pool)
    case None => Step(p, d, ledger)
    case Some((to, f)) => HandleCall(p.(browserTo := to, browserFrom := f), d, ledger, agent, to, f, now, connect)
  }

  /** After an auto-call the form holds its numbers, so the Call button would dial the same call. */
  lemma AutocallFillsTheForm(query: seq<(string, string)>, p: Page, d: D.Dialer, ledger: seq<Entry>,
                             pool: seq<string>, agent: string, now: Instant, connect: D.Outcome)
    requires Autocall(query, d, pool).Some?
    ensures var r := RunAutocall(query, p, d, ledger, pool, agent, now, connect);
      (r.page.browserTo, CallFrom(r.page.browserFrom, pool)) == Autocall(query, d, pool).value
  {
  }

  /** Mounting registers the device; a rejection shows its message on the page. */
  function Mount(p: Page, d: D.Dialer, agent: string, loc: D.Location, apiBase: string,
                 token: D.TokenReply, register: D.Outcome): (r: (Page, D.Dialer))
    ensures r.1 == D.RegisterIfNeeded(d, agent, loc, apiBase, token, register).dialer
    ensures D.RegisterIfNeeded(d, agent, loc, apiBase, token, register).rejection.None? ==> r.0 == p
    ensures D.RegisterIfNeeded(d, agent, loc, apiBase, token, register).rejection.Some? ==>
      r.0 == p.(error := D.RegisterIfNeeded(d, agent, loc, apiBase, token, register).rejection)
  {
    var reg := D.RegisterIfNeeded(d, agent, loc, apiBase, token, register);
    if reg.rejection.Some? then (p.(error := reg.rejection), reg.dialer) else (p, reg.dialer)
  }

  /**
   * A number written with its `+` straight into the query string reaches the
   * call as a space and is refused as invalid, so that auto-call never dials.
   */
  lemma RawPlusNumberIsRefused(query: seq<(string, string)>, d: D.Dialer, pool: seq<string>, p: Page,
                               ledger: seq<Entry>, agent: string, now: Instant, connect: D.Outcome)
    requires |query| >= 2 && query[0] == ("autocall", "1") && query[1].0 == "to"
    requires |query[1].1| > 0 && query[1].1[0] == '+'
    ensures Autocall(query, d, pool).Some? ==>
      && Autocall(query, d, pool).value.0[0] == ' '
      && HandleCall(p, d, ledger, agent, Autocall(query, d, pool).value.0, Autocall(query, d, pool).value.1, now, connect)
         == Step(p.(error := Some(InvalidText)), d, ledger)
  {
    assert Param(query, "to") == Param(query[1..], "to");
    assert Param(query[1..], "to") == Some(FormDecode(query[1].1));
  }

  /**
   * The auto-call effect runs again when the active call goes back to none; the
   * query is unchanged, so after the call's `disconnect` it makes the same call
   * again.
   */
  lemma AutocallRepeatsAfterDisconnect(query: seq<(string, string)>, d: D.Dialer, pool: seq<string>, p: Page,
                                       ledger: seq<Entry>, agent: string, now: Instant, connect: D.Outcome)
    requires Autocall(query, d, pool).Some?
    ensures var s := RunAutocall(query, p, d, ledger, pool, agent, now, connect);
      && (s.page.browserTo, s.page.browserFrom) == Autocall(query, d, pool).value
      && Autocall(query, OnDisconnect(s.page, s.dialer).1, pool) == Autocall(query, d, pool)
  {
  }

  /** A call the button allows, with a valid number and a resolving connect, is always logged once. */
  lemma EnabledCallIsLogged(p: Page, d: D.Dialer, ledger: seq<Entry>, agent: string, pool: seq<string>,
                            now: Instant)
    requires CallEnabled(d) && d.device.Some? && IsE164(p.browserTo)
    ensures var r := HandleCall(p, d, ledger, agent, p.browserTo, CallFrom(p.browserFrom, pool), now, D.Resolves);
      && r.ledger[0].sid == ClientSid(now.ms)
      && r.ledger[0].from == CallFrom(p.browserFrom, pool)
      && r.dialer.active.Some? && !CallEnabled(r.dialer)
  {
  }
}

=== FILE: wrappers.dfy ===
/** Optional values and results shared by every module of the dialer model. */
module Wrappers {

  /** A value that may be missing: JavaScript's `null`/`undefined` for one typed slot. */
  datatype Option<+T> = None | Some(value: T) {

    /** The value, or `default` when there is none (JavaScript's `??`). */
    function GetOr(default: T): T {
      match this
      case Some(v) => v
      case None => default
    }
  }

  /** The outcome of an operation that either produces a value or rejects with a message. */
  datatype Result<+T> = Ok(value: T) | Err(error: string)
}
